=== FILE: README.md ===
# diy-lisp reader, evaluator and environment in Dafny

A model of the core of diy-lisp, a small Lisp interpreter written in
Python 2, with proofs about it. The model has three parts:

- **The reader** (`diylisp/parser.py`). It covers the index-based scanners
  `skip_whitespace`, `skip_symbol`, `find_chars`, `skip_until`, `next_token`
  and `find_matching_paren`, plus `remove_comments`. On top of those sits the
  recursive-descent parser `do_parse`, `parse_expr`, `parse_quote`,
  `parse_int`, `parse_boolean`, `parse_symbol` and `parse`. It also covers the
  top-level splitter `first_expression`/`split_exps` and the renderer
  `unparse`.
- **The evaluator** (`diylisp/evaluator.py`). It covers `evaluate`,
  `eval_atom` and `eval_list`: the special forms `quote`, `if`, `atom`, `eq`
  and `define`, and the integer builtins `+ - * / mod > <`.
- **The environment** (`diylisp/types.py`). It covers `Environment.lookup`,
  `extend` and the write-once `set`, and `LispError`.

Values are one tagged datatype, `Ast.Ast`, with `Int`, `Bool`, `Sym`, `List`
and `Nil`. `Nil` stands for Python's `None`. Because the datatype is tagged,
`True` and `1` are distinct values. Wherever the source compares them as
Python does, the model says so explicitly (`Evaluator.PyEq`).

Every failure is a `Types.Error`:

- `LispError(message)` is the source's own exception, with its message.
- `HostError(name)` names a Python exception the source raises by accident.
  Examples are `IndexError` when `do_parse` runs off the end of the text,
  `UnboundLocalError` for a stray `)`, `AttributeError` when
  `first_expression`'s regex does not match, `TypeError` for a list in head
  position, and `ZeroDivisionError`.

Python's built-ins are written out in `Host`:

- `str.strip()`;
- `int(token)`;
- `str(n)`;
- floor division and divisor-signed `%`. Dafny's own `/` and `%` are
  Euclidean.

The source mutates one environment in place. The model threads it instead:
`Evaluator.Eval` returns an `Outcome` holding the result and the environment.
A `define` that ran before a later error therefore stays in effect, as it does
in Python.

Where the code behaves differently from what a reader of Lisp might expect,
the model follows the code:

- **Truthiness.** `if` uses Python truthiness, so `0`, `[]`, `False` and
  `None` are all false, not only `#f`.
- **Stray `)`.** A stray `)` crashes `do_parse` with an unbound local rather
  than raising a dedicated parse error.
- **Division.** `/` is Python 2 floor division, not truncating division.
- **Unknown heads.** A list whose head names no form evaluates to `None`;
  there is no function application. A head that is itself a list crashes the
  `BUILTINS` lookup.
- **Crashes.** Several crashes are Python exceptions, not `LispError`s.
- **Element loop.** `parse_expr` steps one character past every element
  without looking at it, then skips whitespace before the next element. Text
  that `unparse` produces (single spaces between elements) reads back
  correctly: that is `ReaderProofs.ParseUnparse`. Extra whitespace between
  two elements is harmless too (`ReaderProofs.SpacedListExample` reads
  `(a  b)`). Two layouts go wrong:
  - Whitespace right before the `)`. This means two or more whitespace
    characters after the last element, or any whitespace inside an empty
    list. The loop skips that whitespace up to the `)`. It then hands
    `do_parse` the text cut off at the `)`, with nothing left in it, and
    `do_parse` raises `IndexError` (`ReaderProofs.BlankBeforeCloseFails`).
    `( )` and `(a  )` both fail this way (`ReaderProofs.BlankListExample`,
    `ReaderProofs.TrailingBlankExample`). A single space before the `)` is
    harmless, since that is the character the loop steps over.
  - An element written directly after another with no whitespace between
    them. The character stepped over is then part of the next element.
    `ReaderProofs.AdjacentListExample` shows `(a(b))` reading as `(a b)`.

Modules: `Ast`, `Types`, `Host`, `Scanner`, `Parser`, `ReaderProofs` (the
reader's round trip and examples), `SplitProofs` (where `split_exps` cuts),
`Evaluator` and `EvalProofs` (what each form promises).

## Model

| member | source | states |
|---|---|---|
| Types.Lookup | diylisp/types.py:28-31 | succeeds exactly when the name is bound, then with its value; otherwise fails with "symbol not defined: name" |
| Types.Extend | diylisp/types.py:33-37 | the child binds exactly the parent's names and the new ones; a new binding wins, and every other name keeps the parent's value |
| Types.Set | diylisp/types.py:39-42 | refused with "already defined: name" exactly when the name is bound; otherwise adds that one binding and keeps every other binding |
| Types.LookupAfterSet | diylisp/types.py:28-42 | after a successful set the name looks up to the new value and every other name to what it was |
| Types.SetTwiceRefused | diylisp/types.py:39-42 | a second set of the same name in the environment the first one made is always refused |
| Types.LookupAfterExtend | diylisp/types.py:28-37 | in an extended environment the new bindings answer for their names and the parent for every other name |
| Types.SetInChildLeavesParent | diylisp/types.py:33-42 | binding a name that neither the parent nor the new bindings hold in an extended child succeeds, the parent still lacks it, and every other name not rebound looks up in the child as in the parent |
| Host.Strip | diylisp/parser.py:26 | the result neither starts nor ends with whitespace, loses only whitespace, and leaves already stripped text alone |
| Host.StripTrims | diylisp/parser.py:26 | the text is whitespace, then the stripped text, then whitespace: only leading and trailing whitespace is removed, and the interior is kept as it is |
| Host.IntToStringReads | diylisp/parser.py:371 | `int()` accepts `str(i)` and reads it back as `i` |
| Host.FloorDivMod | diylisp/evaluator.py:27-28 | Python 2 `/` and `%`: quotient times divisor plus remainder is the dividend, and the remainder lies between zero and the divisor |
| Scanner.SkipUntil | diylisp/parser.py:259-264 | the result lies between the start and the end of the text (a start past the end gives the end) and is the end or a character outside the set |
| Scanner.SkipUntilSpec | diylisp/parser.py:259-264 | every character passed over is in the set |
| Scanner.FindChars | diylisp/parser.py:266-271 | the result lies between the start and the end of the text (a start past the end gives the end) and is the end or a character in the set |
| Scanner.FindCharsSpec | diylisp/parser.py:266-271 | no character passed over is in the set |
| Scanner.SkipWhitespace | diylisp/parser.py:225-241 | the result lies between the start and the end of the text and is the end or a non-whitespace character |
| Scanner.SkipWhitespaceSpec | diylisp/parser.py:225-241 | everything skipped is space, tab, newline or carriage return |
| Scanner.SkipSymbol | diylisp/parser.py:243-254 | the result is the end of the text or a delimiter (whitespace, parenthesis or quote mark) |
| Scanner.SkipSymbolSpec | diylisp/parser.py:243-254 | nothing skipped is a delimiter |
| Scanner.NextToken | diylisp/parser.py:197-223 | the token is the text from the position to its end, and that end is the end of the text or a delimiter |
| Scanner.NextTokenSpec | diylisp/parser.py:197-223 | a token holds no delimiter |
| Scanner.TokenAt | diylisp/parser.py:197-223 | a delimiter-free text followed by a delimiter or the end is exactly the token found there |
| Scanner.BalanceCounts | diylisp/parser.py:296-299 | the nesting depth is the number of `(` minus the number of `)` |
| Scanner.ScanClose | diylisp/parser.py:290-300 | the loop of the matcher ends past its start inside the text, or fails with "Incomplete expression" and the rest of the text |
| Scanner.ScanCloseSpec | diylisp/parser.py:290-300 | the loop stops at the first point where the parentheses balance, and fails exactly when there is none |
| Scanner.FindMatchingParen | diylisp/parser.py:285-300 | the match lies after the `(` inside the text; running out of text is the "Incomplete expression" error |
| Scanner.FindMatchingParenSpec | diylisp/parser.py:285-300 | the match is a `)` at which the parentheses first balance, and the search fails exactly when they never do |
| Scanner.RemoveComments | diylisp/parser.py:280-282 | the text never grows, text without a newline or without a `;` is unchanged, and no `;` is left with a newline after it |
| Scanner.RemoveCommentsPrefix | diylisp/parser.py:280-282 | everything before the first `;` is kept as it is |
| Scanner.RemoveCommentsKeeps | diylisp/parser.py:280-282 | text holding no `;` is kept in front of whatever the rest of the text becomes |
| Scanner.RemoveCommentsLine | diylisp/parser.py:280-282 | a comment from `;` up to the first newline is replaced by that newline, the text before it is kept, and the text after it is treated the same way |
| Parser.DoParse | diylisp/parser.py:39-73 | a successful read consumes at least one character, stays inside the text, and never yields `None` |
| Parser.DoParseFails | diylisp/parser.py:46-54 | only whitespace left is an index crash, and a `)` where an expression should start is the unbound-local crash |
| Parser.ParseAt | diylisp/parser.py:48-70 | the dispatch ends inside the text past its start, and a `)` always crashes |
| Parser.ParseExpr | diylisp/parser.py:75-111 | a parsed list ends past its `(` inside the text |
| Parser.ParseElements | diylisp/parser.py:96-111 | the element loop always ends just past the closing parenthesis with a list |
| Parser.ParseExprSpec | diylisp/parser.py:88-111 | a list ends one past the `)` that matches its `(`; when none matches, the matcher's error is the result |
| Parser.ParseQuote | diylisp/parser.py:113-134 | `'e` reads as a two-element list headed by `quote`, ending past the mark |
| Parser.ParseQuoteSpec | diylisp/parser.py:113-134 | the quotation succeeds exactly when reading after the mark does, and then wraps that value and ends where it ends |
| Parser.ParseInt | diylisp/parser.py:136-156 | yields a value exactly when `int()` accepts the token, and then the token's integer value and end |
| Parser.ParseBoolean | diylisp/parser.py:158-177 | true exactly for a whole `#t` token and false exactly for a whole `#f`, each ending two characters on; any other token is "Parse error: token" |
| Parser.ParseSymbol | diylisp/parser.py:179-195 | the symbol is the delimiter-free text up to the token's end, and a delimiter or the end follows it |
| Parser.Parse | diylisp/parser.py:22-37 | success means one expression spans the whole stripped, comment-free text; an expression that stops short is "Expected EOF", and a reader error passes through |
| Parser.SplitList | diylisp/parser.py:330-332 | the expression is a prefix ending in the `)` at which the parentheses first balance, and the split fails exactly when they never do |
| Parser.SplitAtom | diylisp/parser.py:333-337 | the atom is the longest nonempty prefix free of whitespace, `)` and `'`; a text starting with one of those is the regex crash |
| Parser.FirstExpression | diylisp/parser.py:321-337 | the expression is nonempty, the split is no longer than the text, and nothing but whitespace is lost |
| Parser.FirstOfStripped | diylisp/parser.py:326-337 | empty text is an index crash and a leading `)` the regex crash; a leading `'` stays on the expression; a `(` splits at its match and anything else as an atom |
| Parser.SplitRest | diylisp/parser.py:313-318 | no piece is empty |
| Parser.SplitRestLossless | diylisp/parser.py:313-318 | the pieces joined hold every non-whitespace character of the text, in order |
| Parser.FirstExpressionPiece | diylisp/parser.py:321-337 | the expression cut off is one expression's text: quote marks before a parenthesised text whose parentheses first balance at its last character, or before a nonempty run free of whitespace, `)` and `'` |
| Parser.SplitRestPieces | diylisp/parser.py:313-318 | every piece the loop cuts is one expression's text |
| Parser.SplitExps | diylisp/parser.py:303-318 | the pieces are nonempty, each is one expression's text, and together they hold every non-whitespace character of the source in order; blank source gives no pieces |
| SplitProofs.FirstOfPiece | diylisp/parser.py:321-337 | stripped text that starts with one expression's text, followed by nothing or by a space and more text, is cut exactly after that expression |
| SplitProofs.SplitRestSpaced | diylisp/parser.py:313-318 | the loop cuts expression texts joined by single spaces back into exactly those texts |
| SplitProofs.SplitExpsSpaced | diylisp/parser.py:303-318 | `split_exps` of expression texts joined by single spaces gives back exactly those texts, and blank text gives none |
| SplitProofs.SplitExpsExample | diylisp/parser.py:307-310 | `foo bar (baz 123)` splits into `foo`, `bar` and `(baz 123)` |
| Parser.Unparse | diylisp/parser.py:359-371 | fails only with the index error a one-element `quote` list raises; atoms and `None` always render; a quotation renders exactly when its second element does and any other list exactly when all its elements do; a rendered list starts with `'` or is wrapped in parentheses |
| Parser.UnparseJoin | diylisp/parser.py:368 | joining the elements from an index on succeeds exactly when every one of them renders, fails only with the index error, and gives nothing past the end |
| ReaderProofs.RenderedUnparse | diylisp/parser.py:359-371 | `unparse` succeeds on every readable value: `#t`/`#f`, `'` before a quotation's second element, and parenthesised single-space-joined elements |
| ReaderProofs.RenderedBalanced | diylisp/parser.py:359-371 | every rendering has balanced parentheses |
| ReaderProofs.ReadAt | diylisp/parser.py:39-73 | reading where a value's rendering sits, followed by a delimiter, gives back the value and ends right after the rendering |
| ReaderProofs.ReadInt | diylisp/parser.py:136-156 | an integer's rendering is a single token that `parse_int` reads back as that integer |
| ReaderProofs.ReadSym | diylisp/parser.py:179-195 | a symbol's rendering is a token `parse_int` turns down, so `parse_symbol` reads it back |
| ReaderProofs.ReadBool | diylisp/parser.py:158-177 | `#t` and `#f` read back as the two booleans |
| ReaderProofs.ReadQuote | diylisp/parser.py:113-134 | a quotation's rendering reads back as the quotation |
| ReaderProofs.ReadList | diylisp/parser.py:75-111 | a list's rendering reads back as the list, ending past its `)` |
| ReaderProofs.ReadElements | diylisp/parser.py:96-108 | on single-space-separated renderings the element loop reads back every element in order |
| ReaderProofs.ParseUnparse | diylisp/parser.py:22-37 | `parse(unparse(x)) == x` for every readable value (booleans, integers, token symbols, quotations and lists of them) |
| ReaderProofs.QuoteSymbolExample | diylisp/parser.py:116-117 | `'foo` reads as `(quote foo)` ending at 4 |
| ReaderProofs.QuoteEmptyExample | diylisp/parser.py:119-120 | `'()` reads as `(quote ())` ending at 3 |
| ReaderProofs.EmptyListExample | diylisp/parser.py:78-79 | `()` reads as the empty list ending at 2 |
| ReaderProofs.BooleanExample | diylisp/parser.py:166-167 | `#f ` reads as false ending at 2 |
| ReaderProofs.AdjacentListExample | diylisp/parser.py:98-107 | the element loop steps over the `(` directly after an element, so `(a(b))` reads as the symbols `a` and `b` |
| ReaderProofs.SpacedListExample | diylisp/parser.py:96-109 | extra whitespace between elements is skipped before each one, so `(a  b)` reads as the symbols `a` and `b` |
| ReaderProofs.BlankBeforeCloseFails | diylisp/parser.py:98-102 | when only whitespace lies between where the element loop resumes and the `)`, the loop raises `IndexError` |
| ReaderProofs.BlankListExample | diylisp/parser.py:91-102 | `( )` does not read: it raises `IndexError` |
| ReaderProofs.IntSpelledSymbolExample | diylisp/parser.py:64-70 | the symbol `5` renders as `5`, and `do_parse` tries `parse_int` before `parse_symbol`, so it reads back as the integer 5 |
| ReaderProofs.HashSymbolExample | diylisp/parser.py:171-177 | the symbol `#x` renders as `#x`, and a `#` token other than `#t` or `#f` is "Parse error: #x" |
| ReaderProofs.LongQuoteExample | diylisp/parser.py:365-366 | `(quote a b)` renders as `'a`, dropping `b`, and `'a` reads back as `(quote a)` |
| ReaderProofs.TrailingBlankExample | diylisp/parser.py:91-107 | `(a  )` does not read: after `a` and the space stepped over, the second space is all that is left, and `IndexError` is raised |
| Evaluator.BuiltinNamed | diylisp/evaluator.py:23-31 | an operator is found exactly for the seven builtin names, and it is the one with that name |
| Evaluator.Apply | diylisp/evaluator.py:23-31 | only `/` and `mod` by zero fail, with the zero-division crash; arithmetic yields integers and comparisons booleans |
| Evaluator.Eval | diylisp/evaluator.py:34-40 | evaluation only ever adds bindings: every existing binding keeps its value |
| Evaluator.EvalList | diylisp/evaluator.py:42-105 | evaluating a list only ever adds bindings |
| Evaluator.EvalQuote | diylisp/evaluator.py:50-52 | `quote` never touches the environment |
| Evaluator.EvalDefine | diylisp/evaluator.py:83-93 | `define` only ever adds bindings |
| Evaluator.EvalAtom | diylisp/evaluator.py:108-117 | booleans and integers are their own value; a symbol succeeds exactly when it is bound, with its binding; the only failure is a `LispError` |
| EvalProofs.Dispatch | diylisp/evaluator.py:42-105 | a nonempty list goes to the form its head names, in the source's order; a list head crashes and any other unknown head gives `None` |
| EvalProofs.SelfEvaluating | diylisp/evaluator.py:108-117 | booleans and integers evaluate to themselves |
| EvalProofs.SymbolLookup | diylisp/evaluator.py:113-115 | a symbol evaluates to its binding, and an unbound one fails with "symbol not defined" |
| EvalProofs.EmptyList | diylisp/evaluator.py:46-47 | the empty list evaluates to itself |
| EvalProofs.QuoteUnevaluated | diylisp/evaluator.py:50-52 | `(quote e)` gives back `e` whatever it holds, unbound symbols included |
| EvalProofs.WrongArity | diylisp/evaluator.py:51-96 | a fixed-length form of the wrong length is a `LispError` that leaves the environment alone |
| EvalProofs.IfOneBranch | diylisp/evaluator.py:54-62 | `if` evaluates the predicate, then exactly one branch: the consequence when the value is truthy, the alternative otherwise |
| EvalProofs.IfLiteral | diylisp/evaluator.py:59-62 | with a literal predicate the other branch is never evaluated, so an error there does not matter |
| EvalProofs.AtomOfValue | diylisp/evaluator.py:64-66 | `atom` is true exactly when the argument's value is an integer, boolean or symbol |
| EvalProofs.EmptyListNotAtom | diylisp/evaluator.py:64-66 | the quoted empty list is not an atom |
| EvalProofs.EqValues | diylisp/evaluator.py:68-81 | `eq` fails only when an operand fails; it is true exactly when both values are atoms Python finds equal, and a list operand makes it false |
| EvalProofs.PyEqSpec | diylisp/evaluator.py:81 | Python equality on atoms is reflexive and symmetric, is plain equality within one kind, never equates a symbol with a number, and equates `True` with `1` |
| EvalProofs.DefineBinds | diylisp/evaluator.py:83-93 | `define` evaluates the value, binds the name to it and returns it; an already bound name is "already defined" with the bindings unchanged |
| EvalProofs.DefineTwice | diylisp/evaluator.py:83-93 | a second `define` of a name in the environment the first one left always fails |
| EvalProofs.DefineNonSymbol | diylisp/evaluator.py:87-89 | defining anything but a symbol is the "non-symbol" error, with nothing evaluated |
| EvalProofs.BuiltinValues | diylisp/evaluator.py:95-105 | both operands are evaluated left to right; two integers give the operator's result, and anything else is the "can only use integers" error |
| EvalProofs.DivModAgree | diylisp/evaluator.py:27-28 | the `/` and `mod` builtins agree as Python's do: the remainder takes the divisor's sign and reassembles the dividend |
| EvalProofs.UnknownHead | diylisp/evaluator.py:95-105 | a list head crashes the `BUILTINS` lookup, and any other unknown head gives `None` and binds nothing |
| EvalProofs.NoDefineKeepsEnv | diylisp/evaluator.py:42-105 | an expression with no `define` in it leaves the environment exactly as it was |
| EvalProofs.BuiltinOnLiterals | diylisp/evaluator.py:95-105 | a builtin on two integer literals is the operator applied to them |
| EvalProofs.ArithmeticExamples | diylisp/evaluator.py:23-31 | `(+ 1 2)` is 3, `(/ 7 -2)` is -4, `(mod 7 -2)` is -1, `(mod -7 2)` is 1, `(/ 1 0)` crashes, `(> 2 1)` is true, and `(- 3 #t)` is the integer error |

## Left out

- Logging (`logger.debug` calls) has no effect on results and is not modelled.
- Closures, `lambda` and function application: `Closure` raises
  `NotImplementedError` and `eval_list` has no application case, so the model
  has none either. An unknown head yields `None` (`Ast.Nil`).
- `parse_multiple` and `find_whitespace` are not part of this model.
- `diylisp/ast.py` and `diylisp/asserts.py` are not part of this model. The
  predicates `is_atom`, `is_integer` and so on are modelled as tag tests, with
  booleans not counting as integers, and `long` counting as one (see the
  `Evaluator.Apply` line below).
- `assert_exp_length`'s exact message is not known. Its error is modelled as
  `LispError("Malformed <form>")`.
- Evaluator.Apply: integers of every size are one kind of value. Python 2
  promotes to `long` an `int(token)` past the machine range
  (`diylisp/parser.py:152`) and a `+`, `-` or `*` result that overflows
  (`diylisp/evaluator.py:23-31`). The model has no such split: every
  `Ast.Int`, however large, counts as an integer and an atom. The source's
  behaviour for a `long` depends on `is_integer` and `is_atom` in
  `diylisp/ast.py` (used at `diylisp/evaluator.py:37`, 100-103 and 116),
  which is not part of this model.
- Evaluator.NotInteger: the builtin type error leaves out the `%r` rendering
  of the offending operand at the end of the message.
- EvalProofs.DefineNonSymbol: `LispError("define: non-symbol: %s", symbol)`
  passes the symbol as a second exception argument and never interpolates it.
  The message is therefore the literal text with `%s`.
- Parser.ParseInt: Python's `int()` also skips surrounding whitespace. A
  vertical tab or form feed is whitespace to `int()` but not a token
  delimiter, so a token such as a vertical tab followed by `5` reads as an
  integer in the source. The model reads it as a symbol: only an optional
  sign followed by digits is an integer literal here.
- Scanner.RemoveComments: `remove_comments` uses the regex `;.*\n`, where
  `.` does not match a newline. It is modelled as a character scan with the
  same effect; the scan is not proved equal to a general regex engine.
- The `str()` rendering of `None` ("None") is modelled. The text of a closure
  is not, since closures are not modelled.
- ReaderProofs.ParseUnparse: the round trip is proved for readable values
  only (`ReaderProofs.Readable`). These hold no `None`, and every list headed
  by `quote` in them has exactly two elements. Their symbols are nonempty and
  free of delimiters and of Python whitespace. They do not start with `#`
  and are not integer literals. Some other values do not survive `unparse`
  followed by `parse` in the source:
  - `None`;
  - symbols holding delimiters or surrounding whitespace;
  - a symbol spelled like an integer: `Sym("5")` renders as `5`, which
    `parse_int` takes first and reads as the integer 5
    (`ReaderProofs.IntSpelledSymbolExample`);
  - a symbol starting with `#`: `Sym("#x")` renders as `#x`, which is
    "Parse error: #x" (`ReaderProofs.HashSymbolExample`);
  - `quote` lists of any length other than two. `(quote)` does not render,
    and `(quote a b)` renders as `'a`, which reads back as `(quote a)`
    (`ReaderProofs.LongQuoteExample`).

  Some values survive without being covered, such as a symbol with a
  vertical tab or form feed inside it.
- Parser.ParseExpr: `parse_expr`'s general behaviour on arbitrary spacing is
  only stated as its shape (it ends past the matching `)`). Reading back is
  proved for the single-space layout `unparse` produces, plus the
  `(a  b)` and `(a(b))` examples. The `IndexError` for whitespace right
  before the `)` is proved in general (`ReaderProofs.BlankBeforeCloseFails`)
  and shown for `( )` and `(a  )`.
- Parser.SplitRest: no claim is made that every piece parses. A piece is
  known to be one expression's text in shape (`Parser.SplitRestPieces`), and
  the pieces together keep the non-whitespace text.
- Parser.SplitExps: the exact cut points are proved only for expression texts
  joined by single spaces (`SplitProofs.SplitExpsSpaced`). For other spacing
  the contract gives the shape of each piece and that no non-whitespace
  character is lost. It does not say which whitespace fell between which
  pieces.

=== FILE: ast.dfy ===
/** The interpreter's values: the reader's output and the evaluator's results.
    The source represents them as Python values (int, bool, str, list, None);
    here they are one tagged datatype, so `True` and `1` are different shapes. */
module Ast {

  datatype Ast =
    | Int(i: int)
    | Bool(b: bool)
    | Sym(name: string)
    | List(items: seq<Ast>)
    /** Python's `None`: what `eval_list` returns for a form it does not recognise. */
    | Nil

  /** `is_atom`: integers, booleans and symbols (closures are not implemented). */
  predicate IsAtom(x: Ast) {
    x.Int? || x.Bool? || x.Sym?
  }

  /** True when the symbol `name` occurs anywhere in `x`. */
  predicate Mentions(x: Ast, name: string)
    decreases x
  {
    match x
    case Sym(n) => n == name
    case List(items) => exists k :: 0 <= k < |items| && Mentions(items[k], name)
    case _ => false
  }
}

=== FILE: eval_proofs.dfy ===
/** What each form of the evaluator promises, stated about whole
    evaluations of the forms, and the environment facts that hold across
    all of them. */
module EvalProofs {
  import opened Ast
  import opened Types
  import opened Host
  import opened Evaluator

  /** `evaluate` on a nonempty list goes to the form its head names. */
  lemma {:induction false} Dispatch(x: Ast, env: Env)
    requires x.List? && |x.items| > 0
    ensures var car := x.items[0];
      && (car == Sym("quote") ==> Eval(x, env) == EvalQuote(x, env))
      && (car == Sym("if") ==> Eval(x, env) == EvalIf(x, env))
      && (car == Sym("atom") ==> Eval(x, env) == EvalAtomForm(x, env))
      && (car == Sym("eq") ==> Eval(x, env) == EvalEq(x, env))
      && (car == Sym("define") ==> Eval(x, env) == EvalDefine(x, env))
      && (BuiltinNamed(car).Some? ==> Eval(x, env) == EvalBuiltin(BuiltinNamed(car).value, x, env))
      && (Arity(car).None? && car.List? ==> Eval(x, env) == Outcome(Failure(HostError("TypeError")), env))
      && (Arity(car).None? && !car.List? ==> Eval(x, env) == Outcome(Success(Nil), env))
  {
    assert Eval(x, env) == EvalList(x, env);
  }

  /** Booleans and integers evaluate to themselves. */
  lemma {:induction false} SelfEvaluating(x: Ast, env: Env)
    requires x.Int? || x.Bool?
    ensures Eval(x, env) == Outcome(Success(x), env)
  {
  }

  /** A symbol evaluates to its binding; an unbound one is an error. */
  lemma {:induction false} SymbolLookup(n: string, env: Env)
    ensures Eval(Sym(n), env).env == env
    ensures Eval(Sym(n), env).result.Success? <==> n in env.vars
    ensures n in env.vars ==> Eval(Sym(n), env).result.value == env.vars[n]
    ensures n !in env.vars ==> Eval(Sym(n), env).result == Failure(LispError("symbol not defined: " + n))
  {
  }

  /** The empty list evaluates to the empty list. */
  lemma {:induction false} EmptyList(env: Env)
    ensures Eval(List([]), env) == Outcome(Success(List([])), env)
  {
    assert Eval(List([]), env) == EvalList(List([]), env);
  }

  /** `(quote e)` gives `e` back unevaluated, whatever it holds, unbound
      symbols included. */
  lemma {:induction false} QuoteUnevaluated(e: Ast, env: Env)
    ensures Eval(List([Sym("quote"), e]), env) == Outcome(Success(e), env)
  {
    Dispatch(List([Sym("quote"), e]), env);
  }

  /** The number of elements each fixed-length form takes, its head
      included. */
  function Arity(car: Ast): (n: Option<nat>)
    ensures n.Some? ==> n.value >= 2
  {
    if car == Sym("quote") || car == Sym("atom") then Some(2)
    else if car == Sym("if") then Some(4)
    else if car == Sym("eq") || car == Sym("define") || BuiltinNamed(car).Some? then Some(3)
    else None
  }

  /** A form of the wrong length is an error, and nothing of it is
      evaluated: the environment is left as it was. */
  lemma {:induction false} WrongArity(items: seq<Ast>, env: Env)
    requires |items| > 0 && Arity(items[0]).Some? && |items| != Arity(items[0]).value
    ensures Eval(List(items), env).result.Failure?
    ensures Eval(List(items), env).result.error.LispError?
    ensures Eval(List(items), env).env == env
  {
    Dispatch(List(items), env);
  }

  /** `(if p c a)` evaluates the predicate and then exactly one branch, in
      the environment the predicate left: the consequence when the
      predicate's value is true in Python's sense, the alternative
      otherwise. */
  lemma {:induction false} IfOneBranch(p: Ast, c: Ast, a: Ast, env: Env)
    ensures var o := Eval(p, env);
      && (o.result.Failure? ==> Eval(List([Sym("if"), p, c, a]), env) == o)
      && (o.result.Success? && Truthy(o.result.value) ==> Eval(List([Sym("if"), p, c, a]), env) == Eval(c, o.env))
      && (o.result.Success? && !Truthy(o.result.value) ==> Eval(List([Sym("if"), p, c, a]), env) == Eval(a, o.env))
  {
    Dispatch(List([Sym("if"), p, c, a]), env);
  }

  /** With a boolean literal as predicate the untaken branch may be
      anything, even an error: it is never evaluated. */
  lemma {:induction false} IfLiteral(b: bool, c: Ast, a: Ast, env: Env)
    ensures Eval(List([Sym("if"), Bool(b), c, a]), env) == if b then Eval(c, env) else Eval(a, env)
  {
    IfOneBranch(Bool(b), c, a, env);
  }

  /** `(atom e)` is true exactly when the value of `e` is not a list (nor
      `None`). */
  lemma {:induction false} AtomOfValue(e: Ast, env: Env)
    ensures var o := Eval(e, env);
      && (o.result.Failure? ==> Eval(List([Sym("atom"), e]), env) == o)
      && (o.result.Success? ==> Eval(List([Sym("atom"), e]), env) == Outcome(Success(Bool(IsAtom(o.result.value))), o.env))
  {
    Dispatch(List([Sym("atom"), e]), env);
  }

  /** In particular the empty list is not an atom. */
  lemma {:induction false} EmptyListNotAtom(env: Env)
    ensures Eval(List([Sym("atom"), List([Sym("quote"), List([])])]), env) == Outcome(Success(Bool(false)), env)
  {
    AtomOfValue(List([Sym("quote"), List([])]), env);
    QuoteUnevaluated(List([]), env);
  }

  /** `(eq a b)` fails only when an operand fails; it is true exactly when
      both values are atoms that Python finds equal, so any list operand
      makes it false. */
  lemma {:induction false} EqValues(a: Ast, b: Ast, env: Env)
    ensures var oa := Eval(a, env);
      var ob := Eval(b, oa.env);
      var o := Eval(List([Sym("eq"), a, b]), env);
      && (o.result.Failure? <==> oa.result.Failure? || ob.result.Failure?)
      && (o.result == Success(Bool(true)) <==>
            && oa.result.Success? && ob.result.Success?
            && IsAtom(oa.result.value) && IsAtom(ob.result.value)
            && PyEq(oa.result.value, ob.result.value))
      && (oa.result.Success? && ob.result.Success? && (oa.result.value.List? || ob.result.value.List?) ==>
            o.result == Success(Bool(false)))
  {
    Dispatch(List([Sym("eq"), a, b]), env);
  }

  /** Python equality on atoms: an equivalence that agrees with equality of
      values of the same kind, and that makes `True` equal to `1`. */
  lemma {:induction false} PyEqSpec(a: Ast, b: Ast)
    requires IsAtom(a) && IsAtom(b)
    ensures PyEq(a, a) && (PyEq(a, b) <==> PyEq(b, a))
    ensures (a.Int? && b.Int?) || (a.Bool? && b.Bool?) || (a.Sym? && b.Sym?) ==> (PyEq(a, b) <==> a == b)
    ensures a.Sym? != b.Sym? ==> !PyEq(a, b)
    ensures a.Bool? && b.Int? ==> (PyEq(a, b) <==> b.i == if a.b then 1 else 0)
  {
  }

  /** `(define s e)` binds `s` to the value of `e` and gives that value,
      when `s` is not yet bound after evaluating `e`; when it is, the
      define fails and the binding stays as it was. */
  lemma {:induction false} DefineBinds(s: string, e: Ast, env: Env)
    ensures var o := Eval(e, env);
      var d := Eval(List([Sym("define"), Sym(s), e]), env);
      && (o.result.Failure? ==> d == o)
      && (o.result.Success? && s !in o.env.vars ==>
            && d.result == o.result
            && d.env == Env(o.env.vars[s := o.result.value])
            && Lookup(d.env, s) == o.result)
      && (o.result.Success? && s in o.env.vars ==>
            d == Outcome(Failure(LispError("already defined: " + s)), o.env))
  {
    Dispatch(List([Sym("define"), Sym(s), e]), env);
  }

  /** A second `define` of the same name in the environment the first one
      left always fails. */
  lemma {:induction false} DefineTwice(s: string, e1: Ast, e2: Ast, env: Env)
    requires Eval(List([Sym("define"), Sym(s), e1]), env).result.Success?
    ensures var env1 := Eval(List([Sym("define"), Sym(s), e1]), env).env;
      && s in env1.vars
      && Eval(List([Sym("define"), Sym(s), e2]), env1).result.Failure?
  {
    var env1 := Eval(List([Sym("define"), Sym(s), e1]), env).env;
    DefineBinds(s, e1, env);
    DefineBinds(s, e2, env1);
  }

  /** Only a symbol can be defined. */
  lemma {:induction false} DefineNonSymbol(t: Ast, e: Ast, env: Env)
    requires !t.Sym?
    ensures Eval(List([Sym("define"), t, e]), env) == Outcome(Failure(LispError("define: non-symbol: %s")), env)
  {
    Dispatch(List([Sym("define"), t, e]), env);
  }

  /** A builtin applies its operator to the values of both operands when
      both are integers, and fails with a `LispError` when one is not. */
  lemma {:induction false} BuiltinValues(op: Builtin, a: Ast, b: Ast, env: Env)
    ensures var oa := Eval(a, env);
      var ob := Eval(b, oa.env);
      var o := Eval(List([Sym(BuiltinName(op)), a, b]), env);
      && (oa.result.Failure? ==> o == oa)
      && (oa.result.Success? && ob.result.Failure? ==> o == ob)
      && (oa.result.Success? && ob.result.Success? ==>
            && o.env == ob.env
            && (oa.result.value.Int? && ob.result.value.Int? ==> o.result == Apply(op, oa.result.value.i, ob.result.value.i))
            && (!oa.result.value.Int? || !ob.result.value.Int? ==> o.result == Failure(NotInteger(op))))
  {
    assert BuiltinNamed(Sym(BuiltinName(op))) == Some(op);
    Dispatch(List([Sym(BuiltinName(op)), a, b]), env);
  }

  /** `/` and `mod` agree with each other the way Python's do: quotient
      times divisor plus remainder is the dividend, and the remainder has
      the divisor's sign. */
  lemma {:induction false} DivModAgree(a: int, b: int)
    requires b != 0
    ensures Apply(Div, a, b).Success? && Apply(Mod, a, b).Success?
    ensures var q, r := Apply(Div, a, b).value.i, Apply(Mod, a, b).value.i;
      && a == b * q + r
      && (b > 0 ==> 0 <= r < b)
      && (b < 0 ==> b < r <= 0)
  {
    FloorDivMod(a, b);
  }

  /** A list headed by a list crashes the `BUILTINS` lookup; a head that
      names no form gives `None` and binds nothing. */
  lemma {:induction false} UnknownHead(items: seq<Ast>, env: Env)
    requires |items| > 0 && Arity(items[0]).None?
    ensures items[0].List? ==> Eval(List(items), env) == Outcome(Failure(HostError("TypeError")), env)
    ensures !items[0].List? ==> Eval(List(items), env) == Outcome(Success(Nil), env)
  {
    Dispatch(List(items), env);
  }

  /** An expression in which `define` never occurs leaves the environment
      exactly as it found it. */
  lemma {:induction false} NoDefineKeepsEnv(x: Ast, env: Env)
    requires !Mentions(x, "define")
    ensures Eval(x, env).env == env
    decreases x
  {
    if x.List? && |x.items| > 0 {
      var items := x.items;
      Dispatch(x, env);
      assert !Mentions(items[0], "define");
      forall k | 0 <= k < |items|
        ensures !Mentions(items[k], "define")
      {
      }
      if |items| == 4 && items[0] == Sym("if") {
        NoDefineKeepsEnv(items[1], env);
        NoDefineKeepsEnv(items[2], env);
        NoDefineKeepsEnv(items[3], env);
      } else if |items| == 2 && items[0] == Sym("atom") {
        NoDefineKeepsEnv(items[1], env);
      } else if |items| == 3 && (items[0] == Sym("eq") || BuiltinNamed(items[0]).Some?) {
        NoDefineKeepsEnv(items[1], env);
        NoDefineKeepsEnv(items[2], env);
      }
    } else if x.List? {
      assert Eval(x, env) == EvalList(x, env);
    }
  }

  /** A builtin on two integer literals is the operator applied to them. */
  lemma {:induction false} BuiltinOnLiterals(op: Builtin, a: int, b: int, env: Env)
    ensures Eval(List([Sym(BuiltinName(op)), Int(a), Int(b)]), env) == Outcome(Apply(op, a, b), env)
  {
    BuiltinValues(op, Int(a), Int(b), env);
    SelfEvaluating(Int(a), env);
    SelfEvaluating(Int(b), env);
  }

  /** Worked examples of the builtins. */
  lemma {:induction false} ArithmeticExamples(env: Env)
    ensures Eval(List([Sym("+"), Int(1), Int(2)]), env).result == Success(Int(3))
    ensures Eval(List([Sym("/"), Int(7), Int(-2)]), env).result == Success(Int(-4))
    ensures Eval(List([Sym("mod"), Int(7), Int(-2)]), env).result == Success(Int(-1))
    ensures Eval(List([Sym("mod"), Int(-7), Int(2)]), env).result == Success(Int(1))
    ensures Eval(List([Sym("/"), Int(1), Int(0)]), env).result == Failure(HostError("ZeroDivisionError"))
    ensures Eval(List([Sym(">"), Int(2), Int(1)]), env).result == Success(Bool(true))
    ensures Eval(List([Sym("-"), Int(3), Bool(true)]), env).result == Failure(NotInteger(Sub))
  {
    BuiltinOnLiterals(Add, 1, 2, env);
    BuiltinOnLiterals(Div, 7, -2, env);
    BuiltinOnLiterals(Mod, 7, -2, env);
    BuiltinOnLiterals(Mod, -7, 2, env);
    BuiltinOnLiterals(Div, 1, 0, env);
    BuiltinOnLiterals(Gt, 2, 1, env);
    BuiltinValues(Sub, Int(3), Bool(true), env);
    SelfEvaluating(Int(3), env);
    SelfEvaluating(Bool(true), env);
    assert FloorDiv(7, -2) == -4;
    assert FloorMod(7, -2) == -1;
    assert FloorMod(-7, 2) == 1;
  }
}

=== FILE: evaluator.dfy ===
/** The evaluator (diylisp/evaluator.py): atoms, the special forms `quote`,
    `if`, `atom`, `eq` and `define`, and the integer builtins, over an
    environment that evaluation threads through from left to right. */
module Evaluator {
  import opened Ast
  import opened Types
  import opened Host

  /** What one evaluation gives back: the value or the error, and the
      environment as the evaluation left it. The source mutates a single
      environment in place, so a binding made before a later error stays. */
  datatype Outcome = Outcome(result: Result<Ast>, env: Env)

  /** The operators of `BUILTINS`. */
  datatype Builtin = Add | Sub | Mul | Div | Mod | Gt | Lt

  /** The key of each operator in `BUILTINS`. */
  function BuiltinName(op: Builtin): string {
    match op
    case Add => "+"
    case Sub => "-"
    case Mul => "*"
    case Div => "/"
    case Mod => "mod"
    case Gt => ">"
    case Lt => "<"
  }

  /** `car in BUILTINS`, and the operator found there. */
  function BuiltinNamed(car: Ast): (r: Option<Builtin>)
    ensures r.Some? ==> car == Sym(BuiltinName(r.value))
    ensures r.None? ==> forall op :: car != Sym(BuiltinName(op))
  {
    if car == Sym("+") then Some(Add)
    else if car == Sym("-") then Some(Sub)
    else if car == Sym("*") then Some(Mul)
    else if car == Sym("/") then Some(Div)
    else if car == Sym("mod") then Some(Mod)
    else if car == Sym(">") then Some(Gt)
    else if car == Sym("<") then Some(Lt)
    else None
  }

  /** The operator applied to two integers: Python's unbounded integer
      arithmetic, floor division and divisor-signed remainder, with a zero
      divisor crashing the interpreter. */
  function Apply(op: Builtin, a: int, b: int): (r: Result<Ast>)
    ensures r.Failure? <==> (op == Div || op == Mod) && b == 0
    ensures r.Failure? ==> r.error == HostError("ZeroDivisionError")
    ensures r.Success? ==> (r.value.Int? <==> op != Gt && op != Lt) && (r.value.Bool? <==> op == Gt || op == Lt)
  {
    match op
    case Add => Success(Int(a + b))
    case Sub => Success(Int(a - b))
    case Mul => Success(Int(a * b))
    case Div => if b == 0 then Failure(HostError("ZeroDivisionError")) else Success(Int(FloorDiv(a, b)))
    case Mod => if b == 0 then Failure(HostError("ZeroDivisionError")) else Success(Int(FloorMod(a, b)))
    case Gt => Success(Bool(a > b))
    case Lt => Success(Bool(a < b))
  }

  /** Python truthiness of a value: zero, `False`, the empty string, the
      empty list and `None` are false, everything else is true. */
  predicate Truthy(v: Ast) {
    match v
    case Int(i) => i != 0
    case Bool(b) => b
    case Sym(n) => |n| > 0
    case List(items) => |items| > 0
    case Nil => false
  }

  /** The number Python sees in an integer or a boolean (`True == 1`). */
  function NumValue(x: Ast): int
    requires x.Int? || x.Bool?
  {
    if x.Int? then x.i else if x.b then 1 else 0
  }

  /** Python `==` on two atoms: strings compare as strings and never equal
      a number; integers and booleans compare as numbers. */
  predicate PyEq(a: Ast, b: Ast)
    requires IsAtom(a) && IsAtom(b)
  {
    if a.Sym? || b.Sym? then a == b else NumValue(a) == NumValue(b)
  }

  /** The error of `assert_exp_length` for a form of the wrong length. */
  function Malformed(form: string): Error {
    LispError("Malformed " + form)
  }

  /** The error of a builtin given an operand that is not an integer. */
  function NotInteger(op: Builtin): Error {
    LispError("Builtin '" + BuiltinName(op) + "': can only use integers")
  }

  /** `evaluate`: atoms by `eval_atom`, lists by `eval_list`, and `None`
      for anything else. Evaluation only ever adds bindings. */
  function Eval(x: Ast, env: Env): (o: Outcome)
    ensures Grows(env, o.env)
    decreases x, 2
  {
    if IsAtom(x) then Outcome(EvalAtom(x, env), env)
    else if x.List? then EvalList(x, env)
    else Outcome(Success(Nil), env)
  }

  /** `eval_atom`: booleans and integers are their own value, a symbol is
      looked up. */
  function EvalAtom(x: Ast, env: Env): (r: Result<Ast>)
    requires IsAtom(x)
    ensures r.Success? <==> !x.Sym? || x.name in env.vars
    ensures !x.Sym? ==> r == Success(x)
    ensures x.Sym? && r.Success? ==> r.value == env.vars[x.name]
    ensures r.Failure? ==> r.error.LispError?
  {
    match x
    case Bool(_) => Success(x)
    case Sym(n) => Lookup(env, n)
    case Int(_) => Success(x)
  }

  /** `eval_list`: the empty list is its own value; otherwise the head picks
      the form, in the order the source tests them. A list head fails the
      `BUILTINS` lookup (a list is unhashable), and any other head falls off
      the end of the function, giving `None`. */
  function EvalList(x: Ast, env: Env): (o: Outcome)
    requires x.List?
    ensures Grows(env, o.env)
    decreases x, 1
  {
    if |x.items| == 0 then Outcome(Success(List([])), env)
    else
      var car := x.items[0];
      if car == Sym("quote") then EvalQuote(x, env)
      else if car == Sym("if") then EvalIf(x, env)
      else if car == Sym("atom") then EvalAtomForm(x, env)
      else if car == Sym("eq") then EvalEq(x, env)
      else if car == Sym("define") then EvalDefine(x, env)
      else if car.List? then Outcome(Failure(HostError("TypeError")), env)
      else
        match BuiltinNamed(car)
        case Some(op) => EvalBuiltin(op, x, env)
        case None => Outcome(Success(Nil), env)
  }

  /** `(quote e)`: `e` itself, unevaluated. */
  function EvalQuote(x: Ast, env: Env): (o: Outcome)
    requires x.List?
    ensures o.env == env
  {
    if |x.items| != 2 then Outcome(Failure(Malformed("quote")), env)
    else Outcome(Success(x.items[1]), env)
  }

  /** `(if p c a)`: the predicate, then exactly one of the branches. */
  function EvalIf(x: Ast, env: Env): (o: Outcome)
    requires x.List?
    ensures Grows(env, o.env)
    decreases x, 0
  {
    if |x.items| != 4 then Outcome(Failure(Malformed("if")), env)
    else
      var p := Eval(x.items[1], env);
      if p.result.Failure? then p
      else if Truthy(p.result.value) then Eval(x.items[2], p.env)
      else Eval(x.items[3], p.env)
  }

  /** `(atom e)`: whether the value of `e` is an atom. */
  function EvalAtomForm(x: Ast, env: Env): (o: Outcome)
    requires x.List?
    ensures Grows(env, o.env)
    decreases x, 0
  {
    if |x.items| != 2 then Outcome(Failure(Malformed("atom")), env)
    else
      var a := Eval(x.items[1], env);
      if a.result.Failure? then a
      else Outcome(Success(Bool(IsAtom(a.result.value))), a.env)
  }

  /** `(eq a b)`: both operands, left to right; false unless both values are
      atoms, and then Python equality. */
  function EvalEq(x: Ast, env: Env): (o: Outcome)
    requires x.List?
    ensures Grows(env, o.env)
    decreases x, 0
  {
    if |x.items| != 3 then Outcome(Failure(Malformed("eq")), env)
    else
      var a := Eval(x.items[1], env);
      if a.result.Failure? then a
      else
        var b := Eval(x.items[2], a.env);
        if b.result.Failure? then b
        else
          var va, vb := a.result.value, b.result.value;
          Outcome(Success(Bool(IsAtom(va) && IsAtom(vb) && PyEq(va, vb))), b.env)
  }

  /** `(define s e)`: the value of `e`, bound to `s` in the environment, is
      also the value of the form. */
  function EvalDefine(x: Ast, env: Env): (o: Outcome)
    requires x.List?
    ensures Grows(env, o.env)
    decreases x, 0
  {
    if |x.items| != 3 then Outcome(Failure(LispError("define: Wrong number of arguments")), env)
    else if !x.items[1].Sym? then Outcome(Failure(LispError("define: non-symbol: %s")), env)
    else
      var v := Eval(x.items[2], env);
      if v.result.Failure? then v
      else
        match Set(v.env, x.items[1].name, v.result.value)
        case Failure(e) => Outcome(Failure(e), v.env)
        case Success(env') => Outcome(Success(v.result.value), env')
  }

  /** `(op a b)` for a builtin: both operands, left to right, must be
      integers. */
  function EvalBuiltin(op: Builtin, x: Ast, env: Env): (o: Outcome)
    requires x.List?
    ensures Grows(env, o.env)
    decreases x, 0
  {
    if |x.items| != 3 then Outcome(Failure(Malformed(BuiltinName(op))), env)
    else
      var a := Eval(x.items[1], env);
      if a.result.Failure? then a
      else
        var b := Eval(x.items[2], a.env);
        if b.result.Failure? then b
        else if !a.result.value.Int? then Outcome(Failure(NotInteger(op)), b.env)
        else if !b.result.value.Int? then Outcome(Failure(NotInteger(op)), b.env)
        else Outcome(Apply(op, a.result.value.i, b.result.value.i), b.env)
  }
}

=== FILE: host.dfy ===
/** The Python 2 built-ins the reader and the evaluator rely on, written out
    because Dafny's own operations differ: `str.strip()`, `int(token)`,
    `str(n)`, and integer `/` and `%` (floor division, divisor-signed
    remainder). */
module Host {

  /** What `str.strip()` and the regex class `\s` treat as whitespace:
      space, tab, newline, carriage return, vertical tab, form feed. */
  const PyWhitespace: seq<char> := [' ', '\t', '\n', '\r', '\U{0B}', '\U{0C}']

  /** `s` with every `PyWhitespace` character dropped: the text as far as the
      reader is concerned once whitespace is ignored. */
  function Squeeze(s: string): (r: string)
    ensures |r| <= |s|
    ensures forall c :: c in r ==> c !in PyWhitespace
  {
    if |s| == 0 then []
    else (if s[0] in PyWhitespace then [] else [s[0]]) + Squeeze(s[1..])
  }

  lemma {:induction false} SqueezeAppend(a: string, b: string)
    ensures Squeeze(a + b) == Squeeze(a) + Squeeze(b)
    decreases |a|
  {
    if |a| == 0 {
      assert a + b == b;
    } else {
      assert (a + b)[1..] == a[1..] + b;
      SqueezeAppend(a[1..], b);
    }
  }

  /** Putting the same first character in front of a split keeps the split
      lossless. */
  lemma {:induction false} SqueezeCons(s: string, e: string, rest: string)
    requires |s| > 0 && Squeeze(e) + Squeeze(rest) == Squeeze(s[1..])
    ensures Squeeze([s[0]] + e) + Squeeze(rest) == Squeeze(s)
  {
    assert ([s[0]] + e)[1..] == e;
  }

  /** A string made only of whitespace squeezes to nothing. */
  lemma {:induction false} SqueezeBlank(s: string)
    requires forall k :: 0 <= k < |s| ==> s[k] in PyWhitespace
    ensures Squeeze(s) == []
    decreases |s|
  {
    if |s| > 0 {
      SqueezeBlank(s[1..]);
    }
  }

  /** Text that dropping the whitespace empties is all whitespace: the
      converse of `SqueezeBlank`. */
  lemma {:induction false} SqueezeEmpty(s: string)
    requires Squeeze(s) == []
    ensures forall k :: 0 <= k < |s| ==> s[k] in PyWhitespace
    decreases |s|
  {
    if |s| > 0 {
      assert s[0] in PyWhitespace && Squeeze(s[1..]) == [];
      SqueezeEmpty(s[1..]);
      assert forall k :: 1 <= k < |s| ==> s[k] == s[1..][k - 1];
    }
  }

  /** Nothing but whitespace: dropping the whitespace leaves nothing. By
      `SqueezeBlank` and `SqueezeEmpty` this holds exactly when every
      character is whitespace. */
  predicate Blank(t: string) {
    Squeeze(t) == []
  }

  function StripLeft(s: string): (r: string)
    ensures |r| <= |s| && r == s[|s| - |r|..]
    ensures |r| > 0 ==> r[0] !in PyWhitespace
    ensures Squeeze(r) == Squeeze(s)
    ensures (|s| == 0 || s[0] !in PyWhitespace) ==> r == s
  {
    if |s| > 0 && s[0] in PyWhitespace then StripLeft(s[1..]) else s
  }

  function StripRight(s: string): (r: string)
    ensures |r| <= |s| && r == s[..|r|]
    ensures |r| > 0 ==> r[|r| - 1] !in PyWhitespace
    ensures Squeeze(r) == Squeeze(s)
    ensures (|s| == 0 || s[|s| - 1] !in PyWhitespace) ==> r == s
  {
    if |s| > 0 && s[|s| - 1] in PyWhitespace then
      var r := StripRight(s[..|s| - 1]);
      StripRightStep(s, r);
      r
    else s
  }

  /** Dropping trailing whitespace one character at a time loses nothing
      but whitespace. */
  lemma {:induction false} StripRightStep(s: string, r: string)
    requires |s| > 0 && s[|s| - 1] in PyWhitespace
    requires |r| < |s| && r == s[..|s| - 1][..|r|] && Squeeze(r) == Squeeze(s[..|s| - 1])
    ensures r == s[..|r|] && Squeeze(r) == Squeeze(s)
  {
    var p := s[..|s| - 1];
    var c := [s[|s| - 1]];
    assert s == p + c;
    SqueezeAppend(p, c);
    SqueezeBlank(c);
    assert s[..|r|] == p[..|r|];
  }

  /** `str.strip()`: the text without leading or trailing whitespace. It
      loses nothing but whitespace, and leaves already stripped text alone;
      `StripTrims` shows it is the text with whitespace cut from its ends. */
  function Strip(s: string): (r: string)
    ensures |r| <= |s|
    ensures |r| > 0 ==> r[0] !in PyWhitespace && r[|r| - 1] !in PyWhitespace
    ensures Squeeze(r) == Squeeze(s)
    ensures (|s| == 0 || (s[0] !in PyWhitespace && s[|s| - 1] !in PyWhitespace)) ==> r == s
  {
    var l := StripLeft(s);
    var r := StripRight(l);
    assert |r| > 0 ==> r[0] == l[0];
    r
  }

  /** What `StripLeft` cuts off is whitespace. */
  lemma {:induction false} StripLeftCuts(s: string)
    ensures Blank(s[..|s| - |StripLeft(s)|])
    decreases |s|
  {
    if |s| > 0 && s[0] in PyWhitespace {
      var t := s[1..];
      var r := StripLeft(t);
      assert Blank(s[..|s| - |r|]) by {
        StripLeftCuts(t);
        BlankPrefixCons(s, t, |s| - |r|, |t| - |r|);
      }
      assert StripLeft(s) == r;
    }
  }

  /** A prefix made of one whitespace character and then whitespace is
      whitespace. */
  lemma BlankPrefixCons(s: string, t: string, n: nat, m: nat)
    requires |s| > 0 && s[0] in PyWhitespace && t == s[1..]
    requires n == m + 1 && m <= |t| && Blank(t[..m])
    ensures Blank(s[..n])
  {
    PrefixCons(s, n);
    BlankCons(s[0], t[..m]);
  }

  lemma PrefixCons(s: string, n: nat)
    requires 0 < n <= |s|
    ensures s[..n] == [s[0]] + s[1..][..n - 1]
  {
  }

  /** One whitespace character followed by whitespace is whitespace. */
  lemma BlankCons(c: char, t: string)
    requires c in PyWhitespace && Blank(t)
    ensures Blank([c] + t)
  {
    assert ([c] + t)[1..] == t;
  }

  /** What `StripRight` cuts off is whitespace. */
  lemma {:induction false} StripRightCuts(s: string)
    ensures Blank(s[|StripRight(s)|..])
    decreases |s|
  {
    if |s| > 0 && s[|s| - 1] in PyWhitespace {
      var p := s[..|s| - 1];
      var r := StripRight(p);
      var cut := p[|r|..];
      assert StripRight(s) == r;
      assert Blank(cut) by { StripRightCuts(p); }
      assert s[|r|..] == cut + [s[|s| - 1]] by { SuffixSnoc(s, |r|); }
      BlankSnoc(cut, s[|s| - 1]);
    }
  }

  lemma SuffixSnoc(s: string, n: nat)
    requires n < |s|
    ensures s[n..] == s[..|s| - 1][n..] + [s[|s| - 1]]
  {
  }

  /** Whitespace followed by one more whitespace character is whitespace. */
  lemma BlankSnoc(t: string, c: char)
    requires Blank(t) && c in PyWhitespace
    ensures Blank(t + [c])
  {
    SqueezeAppend(t, [c]);
    assert [c][1..] == [];
  }

  /** `str.strip()` keeps the interior of the text as it is: the text is
      whitespace, then the stripped text, then whitespace. */
  lemma {:induction false} StripTrims(s: string)
    ensures exists pre, post :: s == pre + Strip(s) + post && Blank(pre) && Blank(post)
  {
    var l := StripLeft(s);
    var r := StripRight(l);
    assert Blank(s[..|s| - |l|]) by { StripLeftCuts(s); }
    assert Blank(l[|r|..]) by { StripRightCuts(l); }
    Pieces(s, l, r);
    Framed(s, s[..|s| - |l|], Strip(s), l[|r|..]);
  }

  /** A suffix `l` of `s` and a prefix `r` of `l` split `s` into three. */
  lemma Pieces(s: string, l: string, r: string)
    requires |l| <= |s| && l == s[|s| - |l|..]
    requires |r| <= |l| && r == l[..|r|]
    ensures s == s[..|s| - |l|] + r + l[|r|..]
  {
    assert s == s[..|s| - |l|] + l;
    assert l == r + l[|r|..];
  }

  lemma Framed(s: string, pre: string, r: string, post: string)
    requires s == pre + r + post && Blank(pre) && Blank(post)
    ensures exists a, b :: s == a + r + b && Blank(a) && Blank(b)
  {
  }

  predicate IsDigit(c: char) {
    '0' <= c <= '9'
  }

  predicate AllDigits(t: string) {
    forall k :: 0 <= k < |t| ==> IsDigit(t[k])
  }

  /** The value of a string of decimal digits, most significant first. */
  function DigitsValue(t: string): nat
    requires AllDigits(t)
  {
    if |t| == 0 then 0
    else DigitsValue(t[..|t| - 1]) * 10 + (t[|t| - 1] as int - '0' as int)
  }

  /** The tokens `int()` accepts: an optional sign and at least one digit. */
  predicate IsIntLiteral(t: string) {
    if |t| > 0 && (t[0] == '-' || t[0] == '+') then |t| > 1 && AllDigits(t[1..])
    else |t| > 0 && AllDigits(t)
  }

  /** `int(token)` on a token it accepts. */
  function IntValue(t: string): int
    requires IsIntLiteral(t)
  {
    if t[0] == '-' then -(DigitsValue(t[1..]) as int)
    else if t[0] == '+' then DigitsValue(t[1..])
    else DigitsValue(t)
  }

  /** Every character of an integer literal is a digit or a sign. */
  lemma {:induction false} IntLiteralChars(t: string)
    requires IsIntLiteral(t)
    ensures forall c :: c in t ==> IsDigit(c) || c == '-' || c == '+'
  {
    forall c | c in t
      ensures IsDigit(c) || c == '-' || c == '+'
    {
      var k :| 0 <= k < |t| && t[k] == c;
      if k > 0 && (t[0] == '-' || t[0] == '+') {
        assert t[1..][k - 1] == c;
      }
    }
  }

  /** `str(n)` for a natural number: its decimal digits. */
  function NatToString(n: nat): (r: string)
    ensures |r| > 0 && IsDigit(r[0])
  {
    var d := ['0' + (n % 10) as char];
    if n < 10 then d else NatToString(n / 10) + d
  }

  /** The digits of `str(n)` are decimal digits, with no leading zero, and
      `int()` reads them back as `n`. */
  lemma {:induction false} NatToStringDigits(n: nat)
    ensures var r := NatToString(n);
      && AllDigits(r) && DigitsValue(r) == n && (r[0] != '0' || n == 0)
  {
    if n >= 10 {
      var r := NatToString(n);
      NatToStringDigits(n / 10);
      assert r[..|r| - 1] == NatToString(n / 10);
    }
  }

  /** `str(i)`: the decimal rendering of an integer, with a `-` in front of
      a negative one. */
  function IntToString(i: int): (r: string)
    ensures |r| > 0 && r[0] != '+'
  {
    if i < 0 then "-" + NatToString(-i) else NatToString(i)
  }

  /** `int()` reads `str(i)` back as `i`. */
  lemma {:induction false} IntToStringReads(i: int)
    ensures IsIntLiteral(IntToString(i)) && IntValue(IntToString(i)) == i
  {
    var r := IntToString(i);
    if i < 0 {
      NatToStringDigits(-i);
      assert r[1..] == NatToString(-i);
    } else {
      NatToStringDigits(i);
    }
  }

  /** Python 2 `a / b` on integers: the quotient rounded down. */
  function FloorDiv(a: int, b: int): int
    requires b != 0
  {
    if b > 0 || a % b == 0 then a / b else a / b - 1
  }

  /** Python 2 `a % b` on integers: the remainder takes the divisor's sign. */
  function FloorMod(a: int, b: int): int
    requires b != 0
  {
    if b > 0 || a % b == 0 then a % b else a % b + b
  }

  /** Quotient and remainder reassemble the dividend, and the remainder lies
      between zero and the divisor. */
  lemma {:induction false} FloorDivMod(a: int, b: int)
    requires b != 0
    ensures a == b * FloorDiv(a, b) + FloorMod(a, b)
    ensures b > 0 ==> 0 <= FloorMod(a, b) < b
    ensures b < 0 ==> b < FloorMod(a, b) <= 0
  {
  }
}

=== FILE: parser.dfy ===
/** The reader (diylisp/parser.py): a recursive-descent parser over a text
    and an index into it, the top-level expression splitter, and the
    renderer `unparse`. */
module Parser {
  import opened Ast
  import opened Types
  import opened Host
  import opened Scanner

  /** An expression and the index just past the text it was read from. */
  datatype Parsed = Parsed(expr: Ast, pend: nat)

  /** How much text is left after `pos`: the measure the mutually recursive
      parsing functions decrease. */
  function Remaining(s: string, pos: nat): nat {
    if pos <= |s| then |s| - pos else 0
  }

  /** `do_parse`: reads one expression starting at the first non-whitespace
      character at or after `pos`, and always consumes at least one
      character. Running off the end of the text raises `IndexError`. */
  function DoParse(s: string, pos: nat): (r: Result<Parsed>)
    ensures r.Success? ==> pos < r.value.pend <= |s|
    ensures r.Success? ==> r.value.expr != Nil
    decreases Remaining(s, pos), 3
  {
    var p := SkipWhitespace(s, pos);
    if p >= |s| then Failure(HostError("IndexError"))
    else ParseAt(s, p)
  }

  /** The dispatch of `do_parse` on the character at `p`: `(` a list, `'` a
      quotation, `#` a boolean, otherwise an integer when the token reads as
      one and a symbol when not. A stray `)` raises `UnboundLocalError`. */
  function ParseAt(s: string, p: nat): (r: Result<Parsed>)
    requires p < |s| && s[p] !in Whitespace
    ensures r.Success? ==> p < r.value.pend <= |s|
    ensures r.Success? ==> r.value.expr != Nil
    ensures s[p] == ')' ==> r == Failure(HostError("UnboundLocalError"))
    decreases Remaining(s, p), 2
  {
    if s[p] == '(' then ParseExpr(s, p)
    else if s[p] == ')' then Failure(HostError("UnboundLocalError"))
    else if s[p] == '\'' then ParseQuote(s, p)
    else if s[p] == '#' then ParseBoolean(s, p)
    else
      match ParseInt(s, p)
      case Some(q) => Success(q)
      case None => Success(ParseSymbol(s, p))
  }

  /** The two ways `do_parse` crashes before reading anything: nothing but
      whitespace is left, or what is left starts with `)`. */
  lemma {:induction false} DoParseFails(s: string, pos: nat)
    ensures SkipWhitespace(s, pos) == |s| ==> DoParse(s, pos) == Failure(HostError("IndexError"))
    ensures SkipWhitespace(s, pos) < |s| && s[SkipWhitespace(s, pos)] == ')' ==>
              DoParse(s, pos) == Failure(HostError("UnboundLocalError"))
  {
    var p := SkipWhitespace(s, pos);
    if p < |s| {
      assert DoParse(s, pos) == ParseAt(s, p);
    }
  }

  /** `parse_expr`: the list whose `(` is at `start`. It first finds the
      matching `)` and then reads elements up to it; the result ends just
      past that `)`. */
  function ParseExpr(s: string, start: nat): (r: Result<Parsed>)
    requires start < |s| && s[start] == '('
    ensures r.Success? ==> r.value.expr.List? && start < r.value.pend <= |s|
    decreases Remaining(s, start), 1
  {
    var pclose :- FindMatchingParen(s, start);
    ParseElements(s, pclose, start + 1, [])
  }

  /** The element loop of `parse_expr`. Each element is read from the text
      cut off at the closing parenthesis `pclose`, and the loop then steps
      one character past the element's end, expecting a separator there. */
  function ParseElements(s: string, pclose: nat, pos: nat, acc: seq<Ast>): (r: Result<Parsed>)
    requires pclose < |s|
    ensures r.Success? ==> r.value.pend == pclose + 1 && r.value.expr.List?
    decreases if pos <= pclose then pclose - pos else 0, 4
  {
    if pos >= pclose then Success(Parsed(List(acc), pclose + 1))
    else
      var q := SkipWhitespace(s, pos);
      var sub :- DoParse(s[..pclose], q);
      ParseElements(s, pclose, sub.pend + 1, acc + [sub.expr])
  }

  /** `parse_quote`: `'e` reads as the list `(quote e)`, ending where `e`
      ends. */
  function ParseQuote(s: string, pos: nat): (r: Result<Parsed>)
    requires pos < |s| && s[pos] == '\''
    ensures r.Success? ==> pos < r.value.pend <= |s|
    ensures r.Success? ==> r.value.expr.List? && |r.value.expr.items| == 2 && r.value.expr.items[0] == Sym("quote")
    decreases Remaining(s, pos), 1
  {
    var sub :- DoParse(s, pos + 1);
    Success(Parsed(List([Sym("quote"), sub.expr]), sub.pend))
  }

  /** A list ends one past the parenthesis that matches its `(`; when no
      parenthesis matches, the matcher's error is the parser's error. */
  lemma {:induction false} ParseExprSpec(s: string, start: nat)
    requires start < |s| && s[start] == '('
    ensures var r := ParseExpr(s, start);
            && (r.Success? ==> FindMatchingParen(s, start) == Success(r.value.pend - 1))
            && (FindMatchingParen(s, start).Failure? ==> r == FindMatchingParen(s, start).PropagateFailure())
  {
  }

  /** `'e` succeeds exactly when `e` does, and then wraps it in `quote`. */
  lemma {:induction false} ParseQuoteSpec(s: string, pos: nat)
    requires pos < |s| && s[pos] == '\''
    ensures var r := ParseQuote(s, pos);
            && (r.Success? <==> DoParse(s, pos + 1).Success?)
            && (r.Success? ==> r.value == Parsed(List([Sym("quote"), DoParse(s, pos + 1).value.expr]), DoParse(s, pos + 1).value.pend))
  {
  }

  /** `parse_int`: the token at `pos` as an integer, when `int()` accepts it. */
  function ParseInt(s: string, pos: nat): (r: Option<Parsed>)
    ensures r.Some? <==> IsIntLiteral(NextToken(s, pos).0)
    ensures r.Some? ==> r.value == Parsed(Int(IntValue(NextToken(s, pos).0)), NextToken(s, pos).1)
  {
    var (tok, pend) := NextToken(s, pos);
    if |tok| == 0 then None
    else if IsIntLiteral(tok) then Some(Parsed(Int(IntValue(tok)), pend))
    else None
  }

  /** `parse_boolean`: `#t` and `#f`, each a whole token, are the two
      booleans; any other token starting with `#` is a parse error. */
  function ParseBoolean(s: string, pos: nat): (r: Result<Parsed>)
    requires pos < |s| && s[pos] == '#'
    ensures r == Success(Parsed(Bool(true), pos + 2)) <==>
              pos + 2 <= |s| && s[pos..pos + 2] == "#t" && (pos + 2 == |s| || s[pos + 2] in Delimiters)
    ensures r == Success(Parsed(Bool(false), pos + 2)) <==>
              pos + 2 <= |s| && s[pos..pos + 2] == "#f" && (pos + 2 == |s| || s[pos + 2] in Delimiters)
    ensures r.Success? ==> r.value.expr.Bool? && r.value.pend == pos + 2
    ensures r.Failure? ==> r.error == LispError("Parse error: " + NextToken(s, pos).0)
  {
    var (tok, pend) := NextToken(s, pos);
    assert (pos + 2 <= |s| && (s[pos..pos + 2] == "#t" || s[pos..pos + 2] == "#f") &&
            (pos + 2 == |s| || s[pos + 2] in Delimiters))
           ==> tok == s[pos..pos + 2] && pend == pos + 2 by {
      if pos + 2 <= |s| && (s[pos..pos + 2] == "#t" || s[pos..pos + 2] == "#f") &&
         (pos + 2 == |s| || s[pos + 2] in Delimiters) {
        TokenAt(s, pos, s[pos..pos + 2]);
      }
    }
    if tok == "#t" then Success(Parsed(Bool(true), pend))
    else if tok == "#f" then Success(Parsed(Bool(false), pend))
    else Failure(LispError("Parse error: " + tok))
  }

  /** `parse_symbol`: the token at `pos`, taken as a symbol name. */
  function ParseSymbol(s: string, pos: nat): (r: Parsed)
    requires pos <= |s|
    ensures pos <= r.pend <= |s| && r.expr == Sym(s[pos..r.pend])
    ensures forall c :: c in r.expr.name ==> c !in Delimiters
    ensures r.pend == |s| || s[r.pend] in Delimiters
  {
    var (tok, pend) := NextToken(s, pos);
    NextTokenSpec(s, pos);
    Parsed(Sym(s[pos..pend]), pend)
  }

  /** `parse`: exactly one expression. The text is stripped and its comments
      removed first; an expression that stops short of the end of what is
      left is the "Expected EOF" error. */
  function Parse(source: string): (r: Result<Ast>)
    ensures var src := RemoveComments(Strip(source));
            r.Success? ==> DoParse(src, 0) == Success(Parsed(r.value, |src|))
    ensures var src := RemoveComments(Strip(source));
            DoParse(src, 0).Success? && DoParse(src, 0).value.pend != |src| ==>
              r == Failure(LispError("Expected EOF"))
    ensures var src := RemoveComments(Strip(source));
            DoParse(src, 0).Failure? ==> r == DoParse(src, 0).PropagateFailure()
  {
    var src := RemoveComments(Strip(source));
    var p :- DoParse(src, 0);
    if p.pend != |src| then Failure(LispError("Expected EOF")) else Success(p.expr)
  }

  /** What ends an atom in `first_expression`'s pattern `[^\s)']+`. */
  const AtomStops: seq<char> := [' ', '\t', '\n', '\r', '\U{0B}', '\U{0C}', ')', '\'']

  /** The parenthesised case of `first_expression`: the text up to and
      including the `)` that matches the leading `(`. */
  function SplitList(s: string): (r: Result<(string, string)>)
    requires |s| > 0 && s[0] == '('
    ensures r.Success? ==>
              var e := r.value.0;
              && e + r.value.1 == s
              && |e| > 0 && e[|e| - 1] == ')' && Balance(e) == 0
              && forall k :: 0 < k < |e| ==> Balance(e[..k]) > 0
    ensures r.Failure? <==> forall k :: 0 < k <= |s| ==> Balance(s[..k]) > 0
  {
    var m := FindMatchingParen(s, 0);
    FindMatchingParenSpec(s, 0);
    assert forall k :: 0 < k <= |s| ==> s[..k] == s[0..k];
    if m.Failure? then Failure(m.error)
    else
      var e := s[..m.value + 1];
      assert s == e + s[m.value + 1..];
      assert forall k :: 0 < k < |e| ==> e[..k] == s[0..k];
      assert e == s[0..m.value + 1];
      Success((e, s[m.value + 1..]))
  }

  /** The atom case of `first_expression`: the longest prefix free of
      whitespace, `)` and `'`. When that prefix is empty the pattern does not
      match and the Python code raises `AttributeError`. */
  function SplitAtom(s: string): (r: Result<(string, string)>)
    requires |s| > 0
    ensures r.Failure? <==> s[0] in AtomStops
    ensures r.Failure? ==> r.error == HostError("AttributeError")
    ensures r.Success? ==>
              && r.value.0 + r.value.1 == s && |r.value.0| > 0
              && (forall c :: c in r.value.0 ==> c !in AtomStops)
              && (r.value.1 == [] || r.value.1[0] in AtomStops)
  {
    var end := FindChars(s, 0, AtomStops);
    FindCharsSpec(s, 0, AtomStops);
    if end == 0 then Failure(HostError("AttributeError"))
    else
      assert s == s[..end] + s[end..];
      assert forall c :: c in s[..end] ==> c !in AtomStops by {
        forall c | c in s[..end] ensures c !in AtomStops {
          var k :| 0 <= k < end && s[..end][k] == c;
        }
      }
      Success((s[..end], s[end..]))
  }

  /** `first_expression`: splits text, once stripped, into its first
      expression and the rest. Nothing but whitespace is lost in the split. */
  function FirstExpression(source: string): (r: Result<(string, string)>)
    ensures r.Success? ==> |r.value.0| > 0 && |r.value.0| + |r.value.1| <= |source|
    ensures r.Success? ==> Squeeze(r.value.0) + Squeeze(r.value.1) == Squeeze(source)
    decreases |source|, 1
  {
    var s := Strip(source);
    assert |s| <= |source| && Squeeze(s) == Squeeze(source);
    FirstOfStripped(s)
  }

  /** The body of `first_expression` once the text is stripped. Leading quote
      marks stay on the expression; a parenthesised expression runs to its
      matching `)`; an atom runs up to whitespace, `)` or `'`. Empty text
      raises `IndexError` and a leading `)` raises `AttributeError`. */
  function FirstOfStripped(s: string): (r: Result<(string, string)>)
    ensures r.Success? ==> |r.value.0| > 0 && |r.value.0| + |r.value.1| <= |s|
    ensures r.Success? ==> Squeeze(r.value.0) + Squeeze(r.value.1) == Squeeze(s)
    ensures s == [] ==> r == Failure(HostError("IndexError"))
    ensures s != [] && s[0] == ')' ==> r == Failure(HostError("AttributeError"))
    ensures r.Success? && s[0] == '\'' ==> r.value.0[0] == '\''
    ensures s != [] && s[0] == '(' ==> r == SplitList(s)
    ensures s != [] && s[0] != '\'' && s[0] != '(' ==> r == SplitAtom(s)
    decreases |s|, 0
  {
    if |s| == 0 then Failure(HostError("IndexError"))
    else if s[0] == '\'' then
      var pair :- FirstExpression(s[1..]);
      SqueezeCons(s, pair.0, pair.1);
      Success(([s[0]] + pair.0, pair.1))
    else
      var r := if s[0] == '(' then SplitList(s) else SplitAtom(s);
      assert r.Success? ==> Squeeze(r.value.0) + Squeeze(r.value.1) == Squeeze(s) by {
        if r.Success? {
          SqueezeAppend(r.value.0, r.value.1);
        }
      }
      r
  }

  /** The pieces joined end to end. */
  function Concat(pieces: seq<string>): string {
    if |pieces| == 0 then [] else pieces[0] + Concat(pieces[1..])
  }

  /** The loop of `split_exps`: cut first expressions off until nothing is
      left. No piece is empty, and together they hold every non-whitespace
      character of `rest`, in order. */
  function SplitRest(rest: string): (r: Result<seq<string>>)
    ensures r.Success? ==> [] !in r.value
    decreases |rest|
  {
    if |rest| == 0 then Success([])
    else
      var pair :- FirstExpression(rest);
      var more :- SplitRest(pair.1);
      Success([pair.0] + more)
  }

  /** The pieces `split_exps` cuts hold every non-whitespace character of
      the text, in order. */
  lemma {:induction false} SplitRestLossless(rest: string)
    ensures SplitRest(rest).Success? ==> Squeeze(Concat(SplitRest(rest).value)) == Squeeze(rest)
    decreases |rest|
  {
    if |rest| > 0 && FirstExpression(rest).Success? {
      var pair := FirstExpression(rest).value;
      SplitRestLossless(pair.1);
      if SplitRest(pair.1).Success? {
        SplitStep(pair.0, pair.1, SplitRest(pair.1).value, rest);
      }
    }
  }

  /** One more piece in front keeps the pieces lossless. */
  lemma {:induction false} SplitStep(first: string, after: string, more: seq<string>, rest: string)
    requires Squeeze(first) + Squeeze(after) == Squeeze(rest)
    requires Squeeze(Concat(more)) == Squeeze(after)
    ensures Squeeze(Concat([first] + more)) == Squeeze(rest)
  {
    assert ([first] + more)[1..] == more;
    SqueezeAppend(first, Concat(more));
  }

  /** The text of one top-level expression as `first_expression` cuts it:
      quote marks, then either a parenthesised text whose parentheses first
      balance at its last character, or a nonempty atom free of whitespace,
      `)` and `'`. */
  predicate Piece(e: string)
    decreases |e|
  {
    && |e| > 0
    && if e[0] == '\'' then Piece(e[1..])
       else if e[0] == '(' then
         && e[|e| - 1] == ')' && Balance(e) == 0
         && forall k :: 0 < k < |e| ==> Balance(e[..k]) > 0
       else forall c :: c in e ==> c !in AtomStops
  }

  /** What `first_expression` cuts off is one expression's text. */
  lemma {:induction false} FirstExpressionPiece(source: string)
    ensures FirstExpression(source).Success? ==> Piece(FirstExpression(source).value.0)
    decreases |source|, 1
  {
    FirstOfStrippedPiece(Strip(source));
  }

  lemma {:induction false} FirstOfStrippedPiece(s: string)
    ensures FirstOfStripped(s).Success? ==> Piece(FirstOfStripped(s).value.0)
    decreases |s|, 0
  {
    var r := FirstOfStripped(s);
    if r.Success? {
      var e := r.value.0;
      if s[0] == '\'' {
        FirstExpressionPiece(s[1..]);
        assert e[1..] == FirstExpression(s[1..]).value.0;
      } else {
        assert e[0] == (e + r.value.1)[0] == s[0];
      }
    }
  }

  /** Every one of `ps` is one expression's text. */
  predicate AllPieces(ps: seq<string>)
    decreases |ps|
  {
    |ps| == 0 || (Piece(ps[0]) && AllPieces(ps[1..]))
  }

  lemma {:induction false} AllPiecesAt(ps: seq<string>, k: nat)
    requires AllPieces(ps) && k < |ps|
    ensures Piece(ps[k])
    decreases k
  {
    if k > 0 {
      AllPiecesAt(ps[1..], k - 1);
    }
  }

  /** Every piece the loop of `split_exps` cuts is one expression's text. */
  lemma {:induction false} SplitRestPieces(rest: string)
    ensures SplitRest(rest).Success? ==> AllPieces(SplitRest(rest).value)
    decreases |rest|
  {
    if |rest| > 0 && FirstExpression(rest).Success? {
      var pair := FirstExpression(rest).value;
      var more := SplitRest(pair.1);
      if more.Success? {
        var ps := [pair.0] + more.value;
        assert SplitRest(rest) == Success(ps);
        assert ps[1..] == more.value;
        assert Piece(pair.0) by { FirstExpressionPiece(rest); }
        assert AllPieces(more.value) by { SplitRestPieces(pair.1); }
      }
    }
  }

  /** `split_exps`: the top-level expressions of a program text. Each piece
      is one expression's text, and `SplitProofs.SplitExpsSpaced` shows the
      cuts fall between expressions. */
  function SplitExps(source: string): (r: Result<seq<string>>)
    ensures r.Success? ==> Squeeze(Concat(r.value)) == Squeeze(source)
    ensures r.Success? ==> [] !in r.value
    ensures r.Success? ==> forall k :: 0 <= k < |r.value| ==> Piece(r.value[k])
    ensures Strip(source) == [] ==> r == Success([])
  {
    SplitRestLossless(Strip(source));
    SplitRestPieces(Strip(source));
    var r := SplitRest(Strip(source));
    assert r.Success? ==> forall k :: 0 <= k < |r.value| ==> Piece(r.value[k]) by {
      if r.Success? {
        forall k | 0 <= k < |r.value| ensures Piece(r.value[k]) {
          AllPiecesAt(r.value, k);
        }
      }
    }
    r
  }

  /** `unparse`: renders a value as program text. Booleans are `#t` and `#f`,
      a list headed by the symbol `quote` is `'` followed by its second
      element (further elements are dropped, and a lone `(quote)` raises
      `IndexError`), other lists are their elements space-separated in
      parentheses, integers and symbols their own text, and `None` is
      `None`. */
  function Unparse(x: Ast): (r: Result<string>)
    ensures r.Failure? ==> r.error == HostError("IndexError")
    ensures IsAtom(x) || x.Nil? ==> r.Success?
    ensures x.List? && x.items == [Sym("quote")] ==> r.Failure?
    ensures x.List? && |x.items| >= 2 && x.items[0] == Sym("quote") ==>
              (r.Success? <==> Unparse(x.items[1]).Success?)
    ensures x.List? && (|x.items| == 0 || x.items[0] != Sym("quote")) ==>
              (r.Success? <==> forall k :: 0 <= k < |x.items| ==> Unparse(x.items[k]).Success?)
    ensures x.List? && r.Success? ==>
              |r.value| > 0 && (r.value[0] == '\'' || (r.value[0] == '(' && r.value[|r.value| - 1] == ')'))
    decreases x, 1, 0
  {
    match x
    case Bool(b) => Success(if b then "#t" else "#f")
    case List(items) =>
      if |items| > 0 && items[0] == Sym("quote") then
        if |items| < 2 then Failure(HostError("IndexError"))
        else
          var t :- Unparse(items[1]);
          Success("'" + t)
      else
        var j :- UnparseJoin(x, 0);
        Success("(" + j + ")")
    case Int(i) => Success(IntToString(i))
    case Sym(name) => Success(name)
    case Nil => Success("None")
  }

  /** The elements of the list `x` from index `from` on, rendered and joined
      with single spaces. */
  function UnparseJoin(x: Ast, from: nat): (r: Result<string>)
    requires x.List?
    ensures r.Failure? ==> r.error == HostError("IndexError")
    ensures r.Success? <==> forall k :: from <= k < |x.items| ==> Unparse(x.items[k]).Success?
    ensures from >= |x.items| ==> r == Success([])
    decreases x, 0, |x.items| - from
  {
    if from >= |x.items| then Success([])
    else
      var t :- Unparse(x.items[from]);
      if from + 1 == |x.items| then Success(t)
      else
        var rest :- UnparseJoin(x, from + 1);
        Success(t + " " + rest)
  }
}

=== FILE: reader_proofs.dfy ===
/** Properties of the reader that relate several of its operations: reading
    back what `unparse` renders, and splitting a program text without losing
    anything but whitespace. */
module ReaderProofs {
  import opened Ast
  import opened Types
  import opened Host
  import opened Scanner
  import opened Parser

  /** A symbol name the reader gives back unchanged: a nonempty token that
      does not start with `#`, does not read as an integer, and holds no
      whitespace (in the wider sense `str.strip()` uses), parenthesis or
      quote mark. */
  predicate SymbolToken(n: string) {
    && |n| > 0
    && (forall c :: c in n ==> c !in Delimiters && c !in PyWhitespace)
    && n[0] != '#'
    && !IsIntLiteral(n)
  }

  /** The values `unparse` renders faithfully: no `None`, symbols that are
      tokens, and every list headed by `quote` a two-element quotation. */
  predicate Readable(x: Ast)
    decreases x
  {
    match x
    case Int(_) => true
    case Bool(_) => true
    case Sym(n) => SymbolToken(n)
    case Nil => false
    case List(items) =>
      && (|items| > 0 && items[0] == Sym("quote") ==> |items| == 2)
      && forall k :: 0 <= k < |items| ==> Readable(items[k])
  }

  /** No prefix closes more parentheses than it opens, and the whole text
      closes all it opens. */
  predicate Balanced(t: string) {
    Balance(t) == 0 && forall k :: 0 <= k <= |t| ==> Balance(t[..k]) >= 0
  }

  lemma {:induction false} NoParensBalanceZero(t: string)
    requires '(' !in t && ')' !in t
    ensures Balance(t) == 0
    decreases |t|
  {
    if |t| > 0 {
      assert forall c :: c in t[..|t| - 1] ==> c in t;
      NoParensBalanceZero(t[..|t| - 1]);
    }
  }

  lemma {:induction false} NoParensBalanced(t: string)
    requires '(' !in t && ')' !in t
    ensures Balanced(t)
  {
    NoParensBalanceZero(t);
    forall k | 0 <= k <= |t|
      ensures Balance(t[..k]) == 0
    {
      assert forall c :: c in t[..k] ==> c in t;
      NoParensBalanceZero(t[..k]);
    }
  }

  lemma {:induction false} BalancedConcat(a: string, b: string)
    requires Balanced(a) && Balanced(b)
    ensures Balanced(a + b)
  {
    BalanceAppend(a, b);
    forall k | 0 <= k <= |a + b|
      ensures Balance((a + b)[..k]) >= 0
    {
      if k <= |a| {
        assert (a + b)[..k] == a[..k];
      } else {
        assert (a + b)[..k] == a + b[..k - |a|];
        BalanceAppend(a, b[..k - |a|]);
      }
    }
  }

  /** A balanced text in parentheses is balanced, and it returns to depth
      zero only at its last character. */
  lemma {:induction false} Wrapped(j: string)
    requires Balanced(j)
    ensures Balanced("(" + j + ")")
    ensures forall m :: 0 < m < |j| + 2 ==> Balance(("(" + j + ")")[..m]) > 0
  {
    var t := "(" + j + ")";
    assert Balance("(") == 1 by { assert "("[..0] == []; }
    assert Balance(")") == -1 by { assert ")"[..0] == []; }
    forall m | 0 < m < |t|
      ensures Balance(t[..m]) == 1 + Balance(j[..m - 1])
    {
      assert t[..m] == "(" + j[..m - 1];
      BalanceAppend("(", j[..m - 1]);
    }
    assert Balance(t) == 0 by {
      assert t == "(" + (j + ")");
      BalanceAppend("(", j + ")");
      BalanceAppend(j, ")");
    }
    assert t[..|t|] == t;
    assert t[..0] == [];
  }

  /** The rendering of a readable atom. */
  function RenderedAtom(x: Ast): (t: string)
    requires Readable(x) && IsAtom(x)
    ensures |t| > 0
  {
    match x
    case Bool(b) => if b then "#t" else "#f"
    case Int(i) => IntToString(i)
    case Sym(n) => n
  }

  /** An atom renders as one token: no delimiter, parenthesis or
      whitespace in it, and no leading `#` unless it is a boolean. */
  lemma {:induction false} AtomToken(x: Ast)
    requires Readable(x) && IsAtom(x)
    ensures forall c :: c in RenderedAtom(x) ==> c !in Delimiters && c !in PyWhitespace && c != '\n'
    ensures RenderedAtom(x)[0] == '#' <==> x.Bool?
    ensures x.Int? ==> IsIntLiteral(RenderedAtom(x)) && IntValue(RenderedAtom(x)) == x.i
    ensures x.Sym? ==> !IsIntLiteral(RenderedAtom(x))
  {
    match x
    case Int(i) => IntToken(i);
    case Sym(n) =>
    case Bool(b) =>
  }

  /** An integer renders as an integer literal that reads back as it. */
  lemma {:induction false} IntToken(i: int)
    ensures var t := IntToString(i);
      && (forall c :: c in t ==> c !in Delimiters && c !in PyWhitespace && c != '\n')
      && t[0] != '#' && IsIntLiteral(t) && IntValue(t) == i
  {
    IntToStringReads(i);
    IntLiteralChars(IntToString(i));
  }

  /** The text of a readable value, built the way `unparse` builds it: a
      quotation as `'` and the quoted value, any other list as its
      elements' texts space-joined in parentheses. */
  function Rendered(x: Ast): (t: string)
    requires Readable(x)
    ensures |t| > 0
    decreases x, 1, 0
  {
    if x.List? && |x.items| > 0 && x.items[0] == Sym("quote") then "'" + Rendered(x.items[1])
    else if x.List? then "(" + Joined(x, 0) + ")"
    else RenderedAtom(x)
  }

  /** The texts of the elements from `from` on, joined by single spaces. */
  function Joined(x: Ast, from: nat): (j: string)
    requires x.List? && forall k :: 0 <= k < |x.items| ==> Readable(x.items[k])
    decreases x, 0, |x.items| - from
  {
    if from >= |x.items| then []
    else if from + 1 == |x.items| then Rendered(x.items[from])
    else Rendered(x.items[from]) + " " + Joined(x, from + 1)
  }

  /** `unparse` succeeds on every readable value and gives its text. */
  lemma {:induction false} RenderedUnparse(x: Ast)
    requires Readable(x)
    ensures Unparse(x) == Success(Rendered(x))
    decreases x, 1, 0
  {
    if x.List? && |x.items| > 0 && x.items[0] == Sym("quote") {
      RenderedUnparse(x.items[1]);
    } else if x.List? {
      JoinedUnparse(x, 0);
    }
  }

  /** The join loop of `unparse` gives the joined texts of the elements. */
  lemma {:induction false} JoinedUnparse(x: Ast, from: nat)
    requires x.List? && forall k :: 0 <= k < |x.items| ==> Readable(x.items[k])
    ensures UnparseJoin(x, from) == Success(Joined(x, from))
    decreases x, 0, |x.items| - from
  {
    if from < |x.items| {
      RenderedUnparse(x.items[from]);
      if from + 1 < |x.items| {
        JoinedUnparse(x, from + 1);
      }
    }
  }

  /** How the joined text of the elements from `from` on is made up. */
  lemma {:induction false} JoinedStep(x: Ast, from: nat)
    requires x.List? && forall k :: 0 <= k < |x.items| ==> Readable(x.items[k])
    ensures from >= |x.items| ==> Joined(x, from) == []
    ensures from + 1 == |x.items| ==> Joined(x, from) == Rendered(x.items[from])
    ensures from + 1 < |x.items| ==> Joined(x, from) == Rendered(x.items[from]) + " " + Joined(x, from + 1)
  {
  }

  /** A rendering starts with neither whitespace nor `)`, and does not end
      with whitespace. */
  lemma {:induction false} RenderedEnds(x: Ast)
    requires Readable(x)
    ensures var t := Rendered(x);
      t[0] !in PyWhitespace && t[0] != ')' && t[|t| - 1] !in PyWhitespace
    decreases x
  {
    if x.List? && |x.items| > 0 && x.items[0] == Sym("quote") {
      var inner := Rendered(x.items[1]);
      RenderedEnds(x.items[1]);
      assert Rendered(x) == "'" + inner;
      assert ("'" + inner)[|inner|] == inner[|inner| - 1];
    } else if x.List? {
      assert Rendered(x) == "(" + Joined(x, 0) + ")";
    } else {
      AtomToken(x);
      var t := RenderedAtom(x);
      assert Rendered(x) == t;
      assert t[0] in t && t[|t| - 1] in t;
    }
  }

  /** A rendering holds no newline. */
  lemma {:induction false} RenderedOneLine(x: Ast)
    requires Readable(x)
    ensures '\n' !in Rendered(x)
    decreases x, 1, 0
  {
    if x.List? && |x.items| > 0 && x.items[0] == Sym("quote") {
      RenderedOneLine(x.items[1]);
      assert Rendered(x) == "'" + Rendered(x.items[1]);
    } else if x.List? {
      JoinedOneLine(x, 0);
      assert Rendered(x) == "(" + Joined(x, 0) + ")";
    } else {
      AtomToken(x);
      assert Rendered(x) == RenderedAtom(x);
    }
  }

  lemma {:induction false} JoinedOneLine(x: Ast, from: nat)
    requires x.List? && forall k :: 0 <= k < |x.items| ==> Readable(x.items[k])
    ensures '\n' !in Joined(x, from)
    decreases x, 0, |x.items| - from
  {
    JoinedStep(x, from);
    if from < |x.items| {
      RenderedOneLine(x.items[from]);
      if from + 1 < |x.items| {
        JoinedOneLine(x, from + 1);
      }
    }
  }

  /** Every rendering of a readable value is balanced. */
  lemma {:induction false} RenderedBalanced(x: Ast)
    requires Readable(x)
    ensures Balanced(Rendered(x))
    decreases x, 1, 0
  {
    if x.List? && |x.items| > 0 && x.items[0] == Sym("quote") {
      RenderedBalanced(x.items[1]);
      NoParensBalanced("'");
      BalancedConcat("'", Rendered(x.items[1]));
    } else if x.List? {
      JoinedBalanced(x, 0);
      Wrapped(Joined(x, 0));
    } else {
      AtomToken(x);
      NoParensBalanced(RenderedAtom(x));
    }
  }

  lemma {:induction false} JoinedBalanced(x: Ast, from: nat)
    requires x.List? && forall k :: 0 <= k < |x.items| ==> Readable(x.items[k])
    ensures Balanced(Joined(x, from))
    decreases x, 0, |x.items| - from
  {
    JoinedStep(x, from);
    if from >= |x.items| {
      NoParensBalanced([]);
    } else {
      RenderedBalanced(x.items[from]);
      if from + 1 < |x.items| {
        JoinedBalanced(x, from + 1);
        NoParensBalanced(" ");
        BalancedConcat(Rendered(x.items[from]), " ");
        BalancedConcat(Rendered(x.items[from]) + " ", Joined(x, from + 1));
      }
    }
  }

  /** The parenthesis at `pos` is closed by the last character of the
      balanced text that starts there. */
  lemma {:induction false} MatchAt(u: string, pos: nat, j: string)
    requires Balanced(j)
    requires pos + |j| + 2 <= |u| && u[pos..pos + |j| + 2] == "(" + j + ")"
    ensures FindMatchingParen(u, pos) == Success(pos + |j| + 1)
  {
    var t := "(" + j + ")";
    Wrapped(j);
    forall k | pos < k <= pos + |t|
      ensures u[pos..k] == t[..k - pos]
    {
      assert u[pos..k] == u[pos..pos + |t|][..k - pos];
    }
    assert u[pos] == '(';
    assert Balance(u[pos..pos + |t|]) == 0 by {
      assert t[..|t|] == t;
    }
    FindMatchingParenSpec(u, pos);
  }

  /** A slice holding `a + b` holds `a` and then `b`. */
  lemma {:induction false} SplitSlice(u: string, lo: nat, hi: nat, a: string, b: string)
    requires lo <= hi <= |u| && u[lo..hi] == a + b
    ensures lo + |a| <= hi && u[lo..lo + |a|] == a && u[lo + |a|..hi] == b
  {
    assert u[lo..lo + |a|] == (a + b)[..|a|];
    assert u[lo + |a|..hi] == (a + b)[|a|..];
  }

  /** A slice holding `a`, a space and `b`. */
  lemma {:induction false} SplitAtSpace(u: string, lo: nat, hi: nat, a: string, b: string)
    requires lo <= hi <= |u| && u[lo..hi] == a + " " + b
    ensures lo + |a| < hi && u[lo..lo + |a|] == a && u[lo + |a|] == ' ' && u[lo + |a| + 1..hi] == b
  {
    assert a + " " + b == a + (" " + b);
    SplitSlice(u, lo, hi, a, " " + b);
    SplitSlice(u, lo + |a|, hi, " ", b);
    assert u[lo + |a|..lo + |a| + 1][0] == u[lo + |a|];
  }

  /** A slice holding `l`, then `m`, then `r`, each one character or more. */
  lemma {:induction false} SplitWrapped(u: string, lo: nat, hi: nat, l: char, m: string, r: string)
    requires lo <= hi <= |u| && u[lo..hi] == [l] + m + r
    ensures lo + 1 + |m| <= hi && u[lo] == l && u[lo + 1..lo + 1 + |m|] == m
  {
    assert [l] + m + r == [l] + (m + r);
    SplitSlice(u, lo, hi, [l], m + r);
    SplitSlice(u, lo + 1, hi, m, r);
    assert u[lo..lo + 1][0] == u[lo];
  }

  /** A slice of a prefix is a slice of the whole. */
  lemma {:induction false} SliceOfPrefix(u: string, n: nat, lo: nat, hi: nat)
    requires lo <= hi <= n <= |u|
    ensures u[..n][lo..hi] == u[lo..hi]
  {
  }

  /** `do_parse` at a character that is not whitespace dispatches on it. */
  lemma {:induction false} DoParseAt(u: string, pos: nat)
    requires pos < |u| && u[pos] !in Whitespace
    ensures DoParse(u, pos) == ParseAt(u, pos)
  {
    assert SkipWhitespace(u, pos) == pos;
  }

  /** `do_parse` on the first character of an atom's token. */
  lemma {:induction false} ParseAtToken(u: string, pos: nat)
    requires pos < |u| && u[pos] !in Delimiters
    ensures u[pos] == '#' ==> ParseAt(u, pos) == ParseBoolean(u, pos)
    ensures u[pos] != '#' && ParseInt(u, pos).Some? ==> ParseAt(u, pos) == Success(ParseInt(u, pos).value)
    ensures u[pos] != '#' && ParseInt(u, pos).None? ==> ParseAt(u, pos) == Success(ParseSymbol(u, pos))
  {
  }

  /** The rendering of `x` sits in `u` at `pos` and is followed by a
      delimiter or by the end of the text. */
  predicate RenderedAt(x: Ast, u: string, pos: nat) {
    && Readable(x)
    && pos + |Rendered(x)| <= |u| && u[pos..pos + |Rendered(x)|] == Rendered(x)
    && (pos + |Rendered(x)| == |u| || u[pos + |Rendered(x)|] in Delimiters)
  }

  /** Reading at `pos` gives back `x` when its rendering sits there. */
  lemma {:induction false} ReadAt(x: Ast, u: string, pos: nat)
    requires RenderedAt(x, u, pos)
    ensures DoParse(u, pos) == Success(Parsed(x, pos + |Rendered(x)|))
    decreases x, 2, 0
  {
    if x.List? && |x.items| > 0 && x.items[0] == Sym("quote") {
      ReadQuote(x, u, pos);
    } else if x.List? {
      ReadList(x, u, pos);
    } else {
      ReadAtom(x, u, pos);
    }
  }

  lemma {:induction false} ReadAtom(x: Ast, u: string, pos: nat)
    requires RenderedAt(x, u, pos) && IsAtom(x)
    ensures DoParse(u, pos) == Success(Parsed(x, pos + |Rendered(x)|))
  {
    match x
    case Bool(_) => ReadBool(x, u, pos);
    case Int(i) => ReadInt(i, u, pos);
    case Sym(n) => ReadSym(n, u, pos);
  }

  /** An integer's rendering is one token, and `parse_int` reads it back. */
  lemma {:induction false} ReadInt(i: int, u: string, pos: nat)
    requires RenderedAt(Int(i), u, pos)
    ensures DoParse(u, pos) == Success(Parsed(Int(i), pos + |Rendered(Int(i))|))
  {
    var t := IntToString(i);
    assert Rendered(Int(i)) == t;
    RenderedText(Int(i), u, pos, t);
    ReadIntText(u, pos, i, pos + |t|);
  }

  /** A rendering known by its text: the text sits at `pos`, followed by a
      delimiter or the end. */
  lemma RenderedText(x: Ast, u: string, pos: nat, t: string)
    requires RenderedAt(x, u, pos) && Rendered(x) == t
    ensures pos + |t| <= |u| && u[pos..pos + |t|] == t
    ensures pos + |t| == |u| || u[pos + |t|] in Delimiters
  {
  }

  /** `str(i)` standing alone as a token, ending at `pend`, reads back as
      `i`. */
  lemma {:induction false} ReadIntText(u: string, pos: nat, i: int, pend: nat)
    requires pend == pos + |IntToString(i)| <= |u| && u[pos..pend] == IntToString(i)
    requires pend == |u| || u[pend] in Delimiters
    ensures DoParse(u, pos) == Success(Parsed(Int(i), pend))
  {
    var t := IntToString(i);
    IntToken(i);
    TokenAt(u, pos, t);
    assert u[pos] == t[0] && t[0] in t;
    IntAt(u, pos, t, i);
    IntParse(u, pos, Parsed(Int(i), pos + |t|));
  }

  /** `do_parse` at a token that does not start with `#` reads an integer
      when `parse_int` accepts it, and a symbol otherwise. */
  lemma {:induction false} TokenParse(u: string, pos: nat)
    requires pos < |u| && u[pos] !in Delimiters && u[pos] != '#'
    ensures ParseInt(u, pos).Some? ==> DoParse(u, pos) == Success(ParseInt(u, pos).value)
    ensures ParseInt(u, pos).None? ==> DoParse(u, pos) == Success(ParseSymbol(u, pos))
  {
    DoParseAt(u, pos);
    ParseAtToken(u, pos);
  }

  /** `do_parse` at a token that `parse_int` accepts. */
  lemma {:induction false} IntParse(u: string, pos: nat, v: Parsed)
    requires pos < |u| && u[pos] !in Delimiters && u[pos] != '#' && ParseInt(u, pos) == Some(v)
    ensures DoParse(u, pos) == Success(v)
  {
    TokenParse(u, pos);
  }

  /** `parse_int` on a token that is an integer literal. */
  lemma {:induction false} IntAt(u: string, pos: nat, t: string, i: int)
    requires NextToken(u, pos) == (t, pos + |t|) && IsIntLiteral(t) && IntValue(t) == i
    ensures ParseInt(u, pos) == Some(Parsed(Int(i), pos + |t|))
  {
  }

  /** A symbol's name is one token that `parse_int` turns down, so
      `parse_symbol` reads it back. */
  lemma {:induction false} ReadSym(n: string, u: string, pos: nat)
    requires RenderedAt(Sym(n), u, pos)
    ensures DoParse(u, pos) == Success(Parsed(Sym(n), pos + |Rendered(Sym(n))|))
  {
    assert Rendered(Sym(n)) == n;
    TokenAt(u, pos, n);
    assert u[pos] == n[0] && n[0] in n;
    TokenParse(u, pos);
    assert ParseSymbol(u, pos) == Parsed(Sym(n), pos + |n|);
  }

  /** `#t` or `#f` followed by a delimiter or the end of the text. */
  lemma {:induction false} ReadBool(x: Ast, u: string, pos: nat)
    requires RenderedAt(x, u, pos) && x.Bool?
    ensures DoParse(u, pos) == Success(Parsed(x, pos + |Rendered(x)|))
  {
    var t := RenderedAtom(x);
    assert Rendered(x) == t;
    assert u[pos..pos + 2] == t;
    assert u[pos] == t[0];
    BoolParse(u, pos, Parsed(x, pos + 2));
  }

  /** `do_parse` at a `#` is `parse_boolean`. */
  lemma {:induction false} BoolParse(u: string, pos: nat, v: Parsed)
    requires pos < |u| && u[pos] == '#' && ParseBoolean(u, pos) == Success(v)
    ensures DoParse(u, pos) == Success(v)
  {
    DoParseAt(u, pos);
  }

  lemma {:induction false} ReadQuote(x: Ast, u: string, pos: nat)
    requires RenderedAt(x, u, pos) && x.List? && |x.items| > 0 && x.items[0] == Sym("quote")
    ensures DoParse(u, pos) == Success(Parsed(x, pos + |Rendered(x)|))
    decreases x, 1, 0
  {
    QuoteText(x, u, pos);
    ReadAt(x.items[1], u, pos + 1);
    QuoteParse(u, pos, x.items[1], pos + |Rendered(x)|);
    assert x == List([Sym("quote"), x.items[1]]);
  }

  /** `do_parse` at a `'` reads what follows it and quotes it. */
  lemma {:induction false} QuoteParse(u: string, pos: nat, inner: Ast, pend: nat)
    requires pos < |u| && u[pos] == '\'' && DoParse(u, pos + 1) == Success(Parsed(inner, pend))
    ensures DoParse(u, pos) == Success(Parsed(List([Sym("quote"), inner]), pend))
  {
    DoParseAt(u, pos);
    ParseQuoteSpec(u, pos);
  }

  /** A quote's rendering is a `'` followed by the rendering of the quoted
      form, which ends where the quote's does. */
  lemma {:induction false} QuoteText(x: Ast, u: string, pos: nat)
    requires RenderedAt(x, u, pos) && x.List? && |x.items| > 0 && x.items[0] == Sym("quote")
    ensures |x.items| == 2 && pos < |u| && u[pos] == '\''
    ensures RenderedAt(x.items[1], u, pos + 1) && |Rendered(x)| == 1 + |Rendered(x.items[1])|
  {
    var inner := Rendered(x.items[1]);
    assert Rendered(x) == "'" + inner;
    SplitSlice(u, pos, pos + 1 + |inner|, "'", inner);
    assert u[pos] == '\'' by { assert u[pos..pos + 1][0] == u[pos]; }
  }

  lemma {:induction false} ReadList(x: Ast, u: string, pos: nat)
    requires RenderedAt(x, u, pos) && x.List? && !(|x.items| > 0 && x.items[0] == Sym("quote"))
    ensures DoParse(u, pos) == Success(Parsed(x, pos + |Rendered(x)|))
    decreases x, 1, 0
  {
    var pclose := pos + |Rendered(x)| - 1;
    ListText(x, u, pos);
    JoinedElements(x, 0, u, pos + 1, pclose);
    ListParse(x, u, pos, pclose);
  }

  /** A list whose `(` at `pos` is matched at `pclose`, with its elements'
      joined renderings in between, reads back as that list. */
  lemma {:induction false} ListParse(x: Ast, u: string, pos: nat, pclose: nat)
    requires pos < |u| && u[pos] == '(' && FindMatchingParen(u, pos) == Success(pclose)
    requires ElementsAt(x, 0, u, pos + 1, pclose)
    ensures DoParse(u, pos) == Success(Parsed(x, pclose + 1))
    decreases x, 0, |x.items| + 1, 0
  {
    ExprStep(u, pos, pclose);
    ReadElements(x, 0, u, pclose, pos + 1, []);
    ListRead(x, u, pos, pclose);
  }

  /** The element loop's result, read from just after a `(`, is what
      `do_parse` gives there. */
  lemma {:induction false} ListRead(x: Ast, u: string, pos: nat, pclose: nat)
    requires x.List? && pclose < |u|
    requires DoParse(u, pos) == ParseElements(u, pclose, pos + 1, [])
    requires ParseElements(u, pclose, pos + 1, []) == Success(Parsed(List([] + x.items[0..]), pclose + 1))
    ensures DoParse(u, pos) == Success(Parsed(x, pclose + 1))
  {
    assert [] + x.items[0..] == x.items;
  }

  /** `do_parse` on a `(` whose match is at `pclose` runs the element loop
      from just after the `(`. */
  lemma {:induction false} ExprStep(u: string, pos: nat, pclose: nat)
    requires pos < |u| && u[pos] == '('
    requires FindMatchingParen(u, pos) == Success(pclose)
    ensures pclose < |u| && DoParse(u, pos) == ParseElements(u, pclose, pos + 1, [])
  {
    DoParseAt(u, pos);
    assert ParseAt(u, pos) == ParseExpr(u, pos);
  }

  /** Where a list's rendering sits, its `(` is matched by its last
      character, and the joined elements sit in between. */
  lemma {:induction false} ListText(x: Ast, u: string, pos: nat)
    requires RenderedAt(x, u, pos) && x.List? && !(|x.items| > 0 && x.items[0] == Sym("quote"))
    ensures var pclose := pos + |Rendered(x)| - 1;
      && u[pos] == '('
      && FindMatchingParen(u, pos) == Success(pclose)
      && pos + 1 <= pclose < |u| && u[pos + 1..pclose] == Joined(x, 0)
  {
    var j := Joined(x, 0);
    assert Rendered(x) == "(" + j + ")";
    JoinedBalanced(x, 0);
    MatchAt(u, pos, j);
    SplitWrapped(u, pos, pos + |j| + 2, '(', j, ")");
  }

  /** One turn of the element loop of `parse_expr`. */
  lemma {:induction false} ElementStep(u: string, pclose: nat, q: nat, acc: seq<Ast>, e: Ast, pend: nat)
    requires q < pclose < |u| && u[q] !in Whitespace
    requires DoParse(u[..pclose], q) == Success(Parsed(e, pend))
    ensures ParseElements(u, pclose, q, acc) == ParseElements(u, pclose, pend + 1, acc + [e])
  {
    assert SkipWhitespace(u, q) == q;
  }

  /** One element of the loop of `parse_expr`, read from its rendering in
      the text cut off at the closing parenthesis. */
  lemma {:induction false} ReadElement(e: Ast, u: string, pclose: nat, q: nat, q': nat, acc: seq<Ast>)
    requires pclose < |u| && RenderedAt(e, u[..pclose], q) && q' == q + |Rendered(e)| + 1
    ensures ParseElements(u, pclose, q, acc) == ParseElements(u, pclose, q', acc + [e])
    decreases e, 3, 0
  {
    var t := Rendered(e);
    RenderedEnds(e);
    assert u[q] == u[..pclose][q] == t[0];
    ReadAt(e, u[..pclose], q);
    ElementStep(u, pclose, q, acc, e, q + |t|);
  }

  /** The elements of `x` from `from` on are rendered one after another in
      the text `u` cut off at `pclose`, the first at `q`, each followed by
      one separating character, and the last one ending at `pclose`. */
  predicate ElementsAt(x: Ast, from: nat, u: string, q: nat, pclose: nat)
    decreases if x.List? then |x.items| - from else 0
  {
    && x.List? && (forall k :: 0 <= k < |x.items| ==> Readable(x.items[k]))
    && from <= |x.items| && pclose < |u|
    && (from == |x.items| ==> q == pclose)
    && (from < |x.items| ==>
          && RenderedAt(x.items[from], u[..pclose], q)
          && (from + 1 == |x.items| ==> q + |Rendered(x.items[from])| == pclose)
          && (from + 1 < |x.items| ==> ElementsAt(x, from + 1, u, q + |Rendered(x.items[from])| + 1, pclose)))
  }

  /** Where the joined renderings sit, the elements sit one after another. */
  lemma {:induction false} JoinedElements(x: Ast, from: nat, u: string, q: nat, pclose: nat)
    requires x.List? && forall k :: 0 <= k < |x.items| ==> Readable(x.items[k])
    requires from <= |x.items| && q <= pclose < |u| && u[q..pclose] == Joined(x, from)
    ensures ElementsAt(x, from, u, q, pclose)
    decreases |x.items| - from
  {
    if from == |x.items| {
      JoinedStep(x, from);
    } else if from + 1 == |x.items| {
      LastText(x, from, u, q, pclose);
    } else {
      var q' := q + |Rendered(x.items[from])| + 1;
      NextText(x, from, u, q, pclose);
      JoinedElements(x, from + 1, u, q', pclose);
      ElementsCons(x, from, u, q, q', pclose);
    }
  }

  /** One more element in front of the elements that follow it. */
  lemma {:induction false} ElementsCons(x: Ast, from: nat, u: string, q: nat, q': nat, pclose: nat)
    requires ElementsAt(x, from + 1, u, q', pclose) && from + 1 < |x.items|
    requires q' == q + |Rendered(x.items[from])| + 1 && RenderedAt(x.items[from], u[..pclose], q)
    ensures ElementsAt(x, from, u, q, pclose)
  {
  }

  /** The last element's rendering is all that is left before `pclose`. */
  lemma {:induction false} LastText(x: Ast, from: nat, u: string, q: nat, pclose: nat)
    requires x.List? && forall k :: 0 <= k < |x.items| ==> Readable(x.items[k])
    requires from + 1 == |x.items| && q <= pclose < |u| && u[q..pclose] == Joined(x, from)
    ensures RenderedAt(x.items[from], u[..pclose], q) && q + |Rendered(x.items[from])| == pclose
  {
    JoinedStep(x, from);
    SliceOfPrefix(u, pclose, q, pclose);
  }

  /** Where more elements follow, the first element's rendering comes
      first, then a space, then the joined rest. */
  lemma {:induction false} NextText(x: Ast, from: nat, u: string, q: nat, pclose: nat)
    requires x.List? && forall k :: 0 <= k < |x.items| ==> Readable(x.items[k])
    requires from + 1 < |x.items| && q <= pclose < |u| && u[q..pclose] == Joined(x, from)
    ensures var q' := q + |Rendered(x.items[from])| + 1;
      && RenderedAt(x.items[from], u[..pclose], q)
      && q' <= pclose && u[q'..pclose] == Joined(x, from + 1)
  {
    var t := Rendered(x.items[from]);
    JoinedStep(x, from);
    SplitAtSpace(u, q, pclose, t, Joined(x, from + 1));
    SliceOfPrefix(u, pclose, q, q + |t|);
    assert u[..pclose][q + |t|] == ' ';
  }

  /** The element loop of `parse_expr` reads back, one by one, the elements
      `unparse` joined with single spaces. */
  lemma {:induction false} ReadElements(x: Ast, from: nat, u: string, pclose: nat, q: nat, acc: seq<Ast>)
    requires ElementsAt(x, from, u, q, pclose)
    ensures ParseElements(u, pclose, q, acc) == Success(Parsed(List(acc + x.items[from..]), pclose + 1))
    decreases x, 0, |x.items| - from, 3
  {
    if from == |x.items| {
      assert acc + x.items[from..] == acc;
    } else if from + 1 == |x.items| {
      ReadLast(x, from, u, pclose, q, acc);
    } else {
      ReadNext(x, from, u, pclose, q, acc);
    }
  }

  /** The last element, after which the loop stops. */
  lemma {:induction false} ReadLast(x: Ast, from: nat, u: string, pclose: nat, q: nat, acc: seq<Ast>)
    requires ElementsAt(x, from, u, q, pclose) && from + 1 == |x.items|
    ensures ParseElements(u, pclose, q, acc) == Success(Parsed(List(acc + x.items[from..]), pclose + 1))
    decreases x, 0, |x.items| - from, 2
  {
    var e := x.items[from];
    var q' := q + |Rendered(e)| + 1;
    ReadElement(e, u, pclose, q, q', acc);
    ElementsLast(x, from, u, pclose, q', acc);
  }

  /** An element with more after it, then the rest of the loop. */
  lemma {:induction false} ReadNext(x: Ast, from: nat, u: string, pclose: nat, q: nat, acc: seq<Ast>)
    requires ElementsAt(x, from, u, q, pclose) && from + 1 < |x.items|
    ensures ParseElements(u, pclose, q, acc) == Success(Parsed(List(acc + x.items[from..]), pclose + 1))
    decreases x, 0, |x.items| - from, 1
  {
    var e := x.items[from];
    var q' := q + |Rendered(e)| + 1;
    ElementsHead(x, from, u, q, pclose);
    ReadElement(e, u, pclose, q, q', acc);
    ElementsMore(x, from, u, pclose, q, q', acc);
  }

  /** The first element from `from` on sits at `q`, inside the text cut off
      at `pclose`. */
  lemma {:induction false} ElementsHead(x: Ast, from: nat, u: string, q: nat, pclose: nat)
    requires ElementsAt(x, from, u, q, pclose) && from < |x.items|
    ensures pclose < |u| && RenderedAt(x.items[from], u[..pclose], q)
  {
  }

  /** The elements after the first sit one separator past its rendering. */
  lemma {:induction false} ElementsRest(x: Ast, from: nat, u: string, q: nat, q': nat, pclose: nat)
    requires ElementsAt(x, from, u, q, pclose) && from + 1 < |x.items|
    requires q' == q + |Rendered(x.items[from])| + 1
    ensures ElementsAt(x, from + 1, u, q', pclose)
  {
  }

  /** After the last element the loop is past `pclose` and stops. */
  lemma {:induction false} ElementsLast(x: Ast, from: nat, u: string, pclose: nat, q': nat, acc: seq<Ast>)
    requires x.List? && from + 1 == |x.items| && pclose < |u| && q' == pclose + 1
    ensures ParseElements(u, pclose, q', acc + [x.items[from]]) == Success(Parsed(List(acc + x.items[from..]), pclose + 1))
  {
    AppendLast(acc, x.items, from);
  }

  /** An element with more after it, and the rest of the loop. */
  lemma {:induction false} ElementsMore(x: Ast, from: nat, u: string, pclose: nat, q: nat, q': nat, acc: seq<Ast>)
    requires ElementsAt(x, from, u, q, pclose) && from + 1 < |x.items|
    requires q' == q + |Rendered(x.items[from])| + 1
    requires ParseElements(u, pclose, q, acc) == ParseElements(u, pclose, q', acc + [x.items[from]])
    ensures ParseElements(u, pclose, q, acc) == Success(Parsed(List(acc + x.items[from..]), pclose + 1))
    decreases x, 0, |x.items| - from, 0
  {
    var acc' := acc + [x.items[from]];
    assert ParseElements(u, pclose, q', acc') == Success(Parsed(List(acc' + x.items[from + 1..]), pclose + 1)) by {
      ElementsRest(x, from, u, q, q', pclose);
      ReadElements(x, from + 1, u, pclose, q', acc');
    }
    AppendSuffix(acc, x.items, from);
  }

  /** Moving the first element of a suffix onto the prefix before it. */
  lemma {:induction false} AppendSuffix<T>(acc: seq<T>, s: seq<T>, i: nat)
    requires i < |s|
    ensures acc + [s[i]] + s[i + 1..] == acc + s[i..]
  {
    assert s[i..] == [s[i]] + s[i + 1..];
  }

  /** The suffix that holds only the last element. */
  lemma {:induction false} AppendLast<T>(acc: seq<T>, s: seq<T>, i: nat)
    requires i + 1 == |s|
    ensures acc + s[i..] == acc + [s[i]]
  {
    assert s[i..] == [s[i]];
  }

  /** `parse(unparse(x)) == x` for every readable value: booleans, integers,
      symbol tokens, and lists and quotations of them. */
  lemma {:induction false} ParseUnparse(x: Ast)
    requires Readable(x)
    ensures Unparse(x).Success? && Parse(Unparse(x).value) == Success(x)
  {
    var t := Rendered(x);
    RenderedUnparse(x);
    RenderedEnds(x);
    RenderedOneLine(x);
    assert Strip(t) == t;
    assert RemoveComments(t) == t;
    assert t[0..|t|] == t;
    assert RenderedAt(x, t, 0);
    ReadAt(x, t, 0);
  }

  /** `'foo` reads as `(quote foo)`, as the documentation of `parse_quote`
      shows. */
  lemma {:induction false} QuoteSymbolExample()
    ensures ParseQuote("'foo", 0) == Success(Parsed(List([Sym("quote"), Sym("foo")]), 4))
  {
    assert SymbolToken("foo") by {
      assert !IsIntLiteral("foo") by { assert !IsDigit('f'); }
    }
    assert Rendered(Sym("foo")) == "foo";
    assert "'foo"[1..4] == "foo";
    assert RenderedAt(Sym("foo"), "'foo", 1);
    ReadAt(Sym("foo"), "'foo", 1);
    ParseQuoteSpec("'foo", 0);
  }

  /** `'()` reads as `(quote ())`. */
  lemma {:induction false} QuoteEmptyExample()
    ensures ParseQuote("'()", 0) == Success(Parsed(List([Sym("quote"), List([])]), 3))
  {
    assert Rendered(List([])) == "()";
    assert "'()"[1..3] == "()";
    assert RenderedAt(List([]), "'()", 1);
    ReadAt(List([]), "'()", 1);
    ParseQuoteSpec("'()", 0);
  }

  /** `()` reads as the empty list, ending past its `)`. */
  lemma {:induction false} EmptyListExample()
    ensures ParseExpr("()", 0) == Success(Parsed(List([]), 2))
  {
    assert Rendered(List([])) == "()";
    assert RenderedAt(List([]), "()", 0);
    ReadAt(List([]), "()", 0);
    DoParseAt("()", 0);
  }

  /** `#f` followed by a space reads as false, ending before the space. */
  lemma {:induction false} BooleanExample()
    ensures ParseBoolean("#f ", 0) == Success(Parsed(Bool(false), 2))
  {
    assert "#f "[0..2] == "#f";
  }
  /** The element loop steps one character past each element without
      looking at it, so a list written directly after a symbol loses its
      opening parenthesis: `(a(b))` reads as the two symbols `a` and `b`. */
  lemma {:induction false} AdjacentListExample()
    ensures ParseExpr("(a(b))", 0) == Success(Parsed(List([Sym("a"), Sym("b")]), 6))
  {
    var s := "(a(b))";
    AdjacentMatch(s);
    AdjacentElements(s);
  }

  /** The `(` of `(a(b))` is matched by its last character. */
  lemma {:induction false} AdjacentMatch(s: string)
    requires s == "(a(b))"
    ensures FindMatchingParen(s, 0) == Success(5)
  {
    var inner := "(" + "b" + ")";
    NoParensBalanced("a");
    NoParensBalanced("b");
    Wrapped("b");
    BalancedConcat("a", inner);
    assert s[0..6] == "(" + ("a" + inner) + ")";
    MatchAt(s, 0, "a" + inner);
  }

  /** The element loop over `a(b`: `a`, then one character skipped, then `b`. */
  lemma {:induction false} AdjacentElements(s: string)
    requires s == "(a(b))"
    ensures ParseElements(s, 5, 1, []) == Success(Parsed(List([Sym("a"), Sym("b")]), 6))
  {
    var u := s[..5];
    ReadLetter(u, 1, 'a');
    ReadLetter(u, 3, 'b');
    ElementStep(s, 5, 1, [], Sym("a"), 2);
    ElementStep(s, 5, 3, [Sym("a")], Sym("b"), 4);
    assert [] + [Sym("a")] + [Sym("b")] == [Sym("a"), Sym("b")];
  }

  /** A lower-case letter followed by a delimiter or the end reads as the
      one-letter symbol. */
  lemma ReadLetter(u: string, pos: nat, c: char)
    requires pos < |u| && u[pos] == c && 'a' <= c <= 'z'
    requires pos + 1 == |u| || u[pos + 1] in Delimiters
    ensures DoParse(u, pos) == Success(Parsed(Sym([c]), pos + 1))
  {
    var n := [c];
    assert SymbolToken(n) by {
      assert !IsIntLiteral(n) by { assert !IsDigit(c); }
      assert forall x :: x in n ==> x == c;
    }
    assert Rendered(Sym(n)) == n;
    assert u[pos..pos + 1] == n;
    ReadAt(Sym(n), u, pos);
  }

  /** Extra whitespace between elements is skipped before each element is
      read, so `(a  b)` reads as the two symbols `a` and `b`. */
  lemma {:induction false} SpacedListExample()
    ensures ParseExpr("(a  b)", 0) == Success(Parsed(List([Sym("a"), Sym("b")]), 6))
  {
    var s := "(a  b)";
    SpacedMatch(s);
    SpacedElements(s);
  }

  /** The `(` of `(a  b)` is matched by its last character. */
  lemma {:induction false} SpacedMatch(s: string)
    requires s == "(a  b)"
    ensures FindMatchingParen(s, 0) == Success(5)
  {
    NoParensBalanced("a  b");
    assert s[0..6] == "(" + "a  b" + ")";
    MatchAt(s, 0, "a  b");
  }

  /** The element loop over `a  b`: `a`, one character stepped over, the
      second space skipped as whitespace, then `b`. */
  lemma {:induction false} SpacedElements(s: string)
    requires s == "(a  b)"
    ensures ParseElements(s, 5, 1, []) == Success(Parsed(List([Sym("a"), Sym("b")]), 6))
  {
    var u := s[..5];
    ReadLetter(u, 1, 'a');
    ReadLetter(u, 4, 'b');
    ElementStep(s, 5, 1, [], Sym("a"), 2);
    SpacedSkip(s);
    ElementStep(s, 5, 4, [Sym("a")], Sym("b"), 5);
    assert [] + [Sym("a")] + [Sym("b")] == [Sym("a"), Sym("b")];
  }

  /** The second space of `(a  b)` is skipped as whitespace. */
  lemma SpacedSkip(s: string)
    requires s == "(a  b)"
    ensures SkipWhitespace(s, 3) == 4
  {
    assert s[3] in Whitespace && s[4] !in Whitespace;
    assert SkipUntil(s, 4, Whitespace) == 4;
    assert SkipUntil(s, 3, Whitespace) == 4;
  }

  /** Whitespace that runs from where the element loop resumes up to the
      closing parenthesis: `do_parse` is handed the text cut off at the `)`
      with nothing left to read, and raises `IndexError`. */
  lemma {:induction false} BlankBeforeCloseFails(s: string, pclose: nat, pos: nat, acc: seq<Ast>)
    requires pos < pclose < |s| && SkipWhitespace(s, pos) == pclose
    ensures ParseElements(s, pclose, pos, acc) == Failure(HostError("IndexError"))
  {
    DoParseFails(s[..pclose], pclose);
  }

  /** An empty list with a space inside does not read. */
  lemma {:induction false} BlankListExample()
    ensures ParseExpr("( )", 0) == Failure(HostError("IndexError"))
  {
    var s := "( )";
    NoParensBalanced(" ");
    assert s[0..3] == "(" + " " + ")";
    MatchAt(s, 0, " ");
    assert SkipWhitespace(s, 1) == 2 by {
      assert s[1] in Whitespace && s[2] !in Whitespace;
      assert SkipUntil(s, 2, Whitespace) == 2;
    }
    BlankBeforeCloseFails(s, 2, 1, []);
  }

  /** Two spaces between the last element and `)` do not read: the loop
      steps over the first and the second is all that is left. */
  lemma {:induction false} TrailingBlankExample()
    ensures ParseExpr("(a  )", 0) == Failure(HostError("IndexError"))
  {
    var s := "(a  )";
    TrailingBlankMatch(s);
    TrailingBlankElements(s);
  }

  /** The `(` of `(a  )` is matched by its last character. */
  lemma {:induction false} TrailingBlankMatch(s: string)
    requires s == "(a  )"
    ensures FindMatchingParen(s, 0) == Success(4)
  {
    NoParensBalanced("a  ");
    assert s[0..5] == "(" + "a  " + ")";
    MatchAt(s, 0, "a  ");
  }

  /** The element loop over `a  `: `a`, one character stepped over, then
      only the second space before `)`. */
  lemma {:induction false} TrailingBlankElements(s: string)
    requires s == "(a  )"
    ensures ParseElements(s, 4, 1, []) == Failure(HostError("IndexError"))
  {
    var u := s[..4];
    ReadLetter(u, 1, 'a');
    ElementStep(s, 4, 1, [], Sym("a"), 2);
    assert SkipWhitespace(s, 3) == 4 by {
      assert s[3] in Whitespace && s[4] !in Whitespace;
      assert SkipUntil(s, 4, Whitespace) == 4;
    }
    BlankBeforeCloseFails(s, 4, 3, [Sym("a")]);
  }

  /** A symbol spelled like an integer renders as that integer's text, which
      reads back as the integer: `parse_int` takes the token first. */
  lemma {:induction false} IntSpelledSymbolExample(s: string)
    requires s == "5"
    ensures Unparse(Sym(s)) == Success(s)
    ensures Parse(s) == Success(Int(5))
  {
    DigitToken(s);
    ParseWhole(s, Int(5));
  }

  /** The token `5` is read by `parse_int` as the integer 5. */
  lemma DigitToken(s: string)
    requires s == "5"
    ensures DoParse(s, 0) == Success(Parsed(Int(5), |s|))
  {
    assert s[0..1] == s && forall c :: c in s ==> c == '5';
    TokenAt(s, 0, s);
    assert IsIntLiteral(s) && IntValue(s) == 5 by {
      assert s[..0] == [];
      assert DigitsValue(s) == DigitsValue(s[..0]) * 10 + 5;
    }
    IntAt(s, 0, s, 5);
    IntParse(s, 0, Parsed(Int(5), 1));
  }

  /** Text with nothing to strip and no comment, read in one piece by
      `do_parse`, is what `parse` gives. */
  lemma ParseWhole(s: string, v: Ast)
    requires |s| > 0 && s[0] !in PyWhitespace && s[|s| - 1] !in PyWhitespace && ';' !in s
    requires DoParse(s, 0) == Success(Parsed(v, |s|))
    ensures Parse(s) == Success(v)
  {
    assert Strip(s) == s;
    assert RemoveComments(s) == s;
  }

  /** A symbol starting with `#` renders as itself, which the reader takes
      for a malformed boolean. */
  lemma {:induction false} HashSymbolExample(s: string)
    requires s == "#x"
    ensures Unparse(Sym(s)) == Success(s)
    ensures Parse(s) == Failure(LispError("Parse error: #x"))
  {
    HashToken(s);
    ParseWholeFails(s, LispError("Parse error: #x"));
  }

  /** The token `#x` is neither `#t` nor `#f`. */
  lemma HashToken(s: string)
    requires s == "#x"
    ensures DoParse(s, 0) == Failure(LispError("Parse error: #x"))
  {
    DoParseAt(s, 0);
    assert s[0..2] == s && forall c :: c in s ==> c == '#' || c == 'x';
    TokenAt(s, 0, s);
  }

  /** Text with nothing to strip and no comment on which `do_parse` fails
      fails `parse` the same way. */
  lemma ParseWholeFails(s: string, e: Error)
    requires |s| > 0 && s[0] !in PyWhitespace && s[|s| - 1] !in PyWhitespace && ';' !in s
    requires DoParse(s, 0) == Failure(e)
    ensures Parse(s) == Failure(e)
  {
    assert Strip(s) == s;
    assert RemoveComments(s) == s;
  }

  /** A `quote` list of more than two elements renders as `'` and its
      second element only, and reads back as the two-element quotation. */
  lemma {:induction false} LongQuoteExample(s: string)
    requires s == "'a"
    ensures Unparse(List([Sym("quote"), Sym("a"), Sym("b")])) == Success(s)
    ensures Parse(s) == Success(List([Sym("quote"), Sym("a")]))
  {
    QuoteA(s);
    ParseWhole(s, List([Sym("quote"), Sym("a")]));
  }

  /** `'a` is read by `parse_quote` as `(quote a)`. */
  lemma QuoteA(s: string)
    requires s == "'a"
    ensures DoParse(s, 0) == Success(Parsed(List([Sym("quote"), Sym("a")]), |s|))
  {
    ReadLetter(s, 1, 'a');
    ParseQuoteSpec(s, 0);
    DoParseAt(s, 0);
  }
}

=== FILE: scanner.dfy ===
/** The index-based string scanners of the reader (diylisp/parser.py):
    skipping whitespace, finding the end of a token, matching parentheses
    and removing comments. Positions are indices into the source text. */
module Scanner {
  import opened Types

  /** `WHITESPACE`: the characters `skip_whitespace` passes over. */
  const Whitespace: seq<char> := [' ', '\t', '\n', '\r']

  /** What ends a token: whitespace, either parenthesis and the quote mark. */
  const Delimiters: seq<char> := [' ', '\t', '\n', '\r', '(', ')', '\'']

  /** `skip_until`: the first index at or after `start` whose character is
      not in `chars`, or `|s|` when there is none. A start past the end
      gives `|s|`, as slicing past the end does in Python. */
  function SkipUntil(s: string, start: nat, chars: seq<char>): (r: nat)
    ensures r <= |s|
    ensures start <= |s| ==> start <= r
    ensures start >= |s| ==> r == |s|
    ensures r < |s| ==> s[r] !in chars
    decreases |s| - start
  {
    if start >= |s| then |s|
    else if s[start] in chars then SkipUntil(s, start + 1, chars)
    else start
  }

  /** Everything `skip_until` passes over is in `chars`. */
  lemma {:induction false} SkipUntilSpec(s: string, start: nat, chars: seq<char>)
    ensures forall k :: start <= k < SkipUntil(s, start, chars) ==> s[k] in chars
    decreases |s| - start
  {
    if start < |s| && s[start] in chars {
      SkipUntilSpec(s, start + 1, chars);
    }
  }

  /** `find_chars`: the first index at or after `start` whose character is
      in `chars`, or `|s|` when there is none. */
  function FindChars(s: string, start: nat, chars: seq<char>): (r: nat)
    ensures r <= |s|
    ensures start <= |s| ==> start <= r
    ensures start >= |s| ==> r == |s|
    ensures r < |s| ==> s[r] in chars
    decreases |s| - start
  {
    if start >= |s| then |s|
    else if s[start] in chars then start
    else FindChars(s, start + 1, chars)
  }

  /** Nothing `find_chars` passes over is in `chars`. */
  lemma {:induction false} FindCharsSpec(s: string, start: nat, chars: seq<char>)
    ensures forall k :: start <= k < FindChars(s, start, chars) ==> s[k] !in chars
    decreases |s| - start
  {
    if start < |s| && s[start] !in chars {
      FindCharsSpec(s, start + 1, chars);
    }
  }

  /** `skip_whitespace`: `start` moved past a run of whitespace. */
  function SkipWhitespace(s: string, start: nat): (r: nat)
    ensures r <= |s|
    ensures start <= |s| ==> start <= r
    ensures r == |s| || s[r] !in Whitespace
  {
    SkipUntil(s, start, Whitespace)
  }

  /** What `skip_whitespace` passes over is whitespace. */
  lemma {:induction false} SkipWhitespaceSpec(s: string, start: nat)
    ensures forall k :: start <= k < SkipWhitespace(s, start) ==> s[k] in Whitespace
  {
    SkipUntilSpec(s, start, Whitespace);
  }

  /** `skip_symbol`: the first delimiter at or after `start`. */
  function SkipSymbol(s: string, start: nat): (r: nat)
    ensures r <= |s|
    ensures start <= |s| ==> start <= r
    ensures r == |s| || s[r] in Delimiters
  {
    FindChars(s, start, Delimiters)
  }

  /** What `skip_symbol` passes over holds no delimiter. */
  lemma {:induction false} SkipSymbolSpec(s: string, start: nat)
    ensures forall k :: start <= k < SkipSymbol(s, start) ==> s[k] !in Delimiters
  {
    FindCharsSpec(s, start, Delimiters);
  }

  /** `next_token`: the token starting at `pos` and the index just past it.
      It stops at a delimiter or at the end of the text. */
  function NextToken(s: string, pos: nat): (r: (string, nat))
    ensures r.1 <= |s|
    ensures pos <= |s| ==> pos <= r.1 && r.0 == s[pos..r.1]
    ensures pos > |s| ==> r.0 == []
    ensures r.1 == |s| || s[r.1] in Delimiters
  {
    var pend := SkipSymbol(s, pos);
    if pos <= pend then (s[pos..pend], pend) else ([], pend)
  }

  /** A token holds no delimiter. */
  lemma {:induction false} NextTokenSpec(s: string, pos: nat)
    ensures forall c :: c in NextToken(s, pos).0 ==> c !in Delimiters
  {
    var (tok, pend) := NextToken(s, pos);
    SkipSymbolSpec(s, pos);
    forall c | c in tok ensures c !in Delimiters {
      var k :| 0 <= k < |tok| && tok[k] == c;
      assert s[pos + k] == c;
    }
  }

  /** The token at `pos` is exactly `t` when `t` holds no delimiter and is
      followed by a delimiter or the end of the text. */
  lemma {:induction false} TokenAt(s: string, pos: nat, t: string)
    requires pos + |t| <= |s| && s[pos..pos + |t|] == t
    requires forall c :: c in t ==> c !in Delimiters
    requires pos + |t| == |s| || s[pos + |t|] in Delimiters
    ensures NextToken(s, pos) == (t, pos + |t|)
  {
    SkipSymbolSpec(s, pos);
  }

  /** What one character adds to the nesting depth. */
  function Delta(c: char): int {
    if c == '(' then 1 else if c == ')' then -1 else 0
  }

  /** Opening minus closing parentheses in `t`. */
  function Balance(t: string): int {
    if |t| == 0 then 0 else Balance(t[..|t| - 1]) + Delta(t[|t| - 1])
  }

  lemma {:induction false} BalanceAppend(a: string, b: string)
    ensures Balance(a + b) == Balance(a) + Balance(b)
    decreases |b|
  {
    if |b| > 0 {
      var b' := b[..|b| - 1];
      assert (a + b)[..|a + b| - 1] == a + b';
      assert (a + b)[|a + b| - 1] == b[|b| - 1];
      BalanceAppend(a, b');
    } else {
      assert a + b == a;
    }
  }

  /** The balance is literally the count of `(` minus the count of `)`. */
  lemma {:induction false} BalanceCounts(t: string)
    ensures Balance(t) == multiset(t)['('] as int - multiset(t)[')'] as int
    decreases |t|
  {
    if |t| > 0 {
      var t' := t[..|t| - 1];
      assert t == t' + [t[|t| - 1]];
      BalanceCounts(t');
    }
  }

  /** The loop of `find_matching_paren`: `pos` is the last index read and
      `depth` the number of parentheses still open after it. */
  function ScanClose(s: string, start: nat, pos: nat, depth: int): (r: Result<nat>)
    requires start <= pos < |s|
    ensures r.Success? ==> pos < r.value < |s|
    ensures r.Failure? ==> r.error == LispError("Incomplete expression: " + s[start..])
    decreases |s| - pos
  {
    var next := pos + 1;
    if next == |s| then Failure(LispError("Incomplete expression: " + s[start..]))
    else
      var depth' := depth + Delta(s[next]);
      if depth' > 0 then ScanClose(s, start, next, depth')
      else Success(next)
  }

  /** Started with the true depth, the loop stops at the first point where
      the parentheses balance, and fails exactly when there is none. */
  lemma {:induction false} ScanCloseSpec(s: string, start: nat, pos: nat, depth: int)
    requires start <= pos < |s|
    requires depth == Balance(s[start..pos + 1]) && depth > 0
    requires forall k :: start < k <= pos ==> Balance(s[start..k]) > 0
    ensures var r := ScanClose(s, start, pos, depth);
      && (r.Success? ==> Balance(s[start..r.value + 1]) == 0)
      && (r.Success? ==> forall k :: start < k <= r.value ==> Balance(s[start..k]) > 0)
      && (r.Failure? <==> forall k :: start < k <= |s| ==> Balance(s[start..k]) > 0)
    decreases |s| - pos
  {
    var next := pos + 1;
    if next < |s| {
      assert s[start..next + 1][..next - start] == s[start..next];
      var depth' := depth + Delta(s[next]);
      assert Balance(s[start..next + 1]) == depth';
      if depth' > 0 {
        ScanCloseSpec(s, start, next, depth');
      } else {
        assert Balance(s[start..next + 1]) == 0;
      }
    }
  }

  /** `find_matching_paren`: the index of the `)` that closes the `(` at
      `start`, or the "Incomplete expression" error when the text ends
      first. */
  function FindMatchingParen(s: string, start: nat): (r: Result<nat>)
    requires start < |s| && s[start] == '('
    ensures r.Success? ==> start < r.value < |s|
    ensures r.Failure? ==> r.error == LispError("Incomplete expression: " + s[start..])
  {
    ScanClose(s, start, start, 1)
  }

  /** The matching `)` is the first point after `start` where the
      parentheses read so far balance; the search fails exactly when the
      text ends before any such point. */
  lemma {:induction false} FindMatchingParenSpec(s: string, start: nat)
    requires start < |s| && s[start] == '('
    ensures var r := FindMatchingParen(s, start);
      && (r.Success? ==> s[r.value] == ')' && Balance(s[start..r.value + 1]) == 0)
      && (r.Success? ==> forall k :: start < k <= r.value ==> Balance(s[start..k]) > 0)
      && (r.Failure? <==> forall k :: start < k <= |s| ==> Balance(s[start..k]) > 0)
  {
    assert s[start..start + 1][..0] == [];
    ScanCloseSpec(s, start, start, 1);
    var r := FindMatchingParen(s, start);
    if r.Success? {
      var p := r.value;
      assert s[start..p + 1][..p - start] == s[start..p];
    }
  }

  /** `remove_comments`: every `;` that has a newline somewhere after it is
      deleted together with the rest of its line, the newline being kept.
      A `;` on the last line, with no newline after it, stays. */
  function RemoveComments(s: string): (r: string)
    ensures |r| <= |s|
    ensures '\n' !in s ==> r == s
    ensures ';' !in s ==> r == s
    ensures forall i, j :: 0 <= i < j < |r| && r[i] == ';' ==> r[j] != '\n'
    decreases |s|
  {
    if |s| == 0 then []
    else if s[0] == ';' && '\n' in s then
      FindCharsSpec(s, 0, "\n");
      var nl := FindChars(s, 0, "\n");
      "\n" + RemoveComments(s[nl + 1..])
    else
      var rest := RemoveComments(s[1..]);
      assert s == [s[0]] + s[1..];
      assert s[0] != ';' ==> (';' in s <==> ';' in s[1..]);
      [s[0]] + rest
  }

  /** Everything before the first `;` is kept as it is. */
  lemma {:induction false} RemoveCommentsPrefix(s: string, p: nat)
    requires p <= |s| && ';' !in s[..p]
    ensures p <= |RemoveComments(s)| && RemoveComments(s)[..p] == s[..p]
    decreases |s|
  {
    if p > 0 {
      assert s[0] == s[..p][0];
      assert s[1..][..p - 1] == s[..p][1..];
      RemoveCommentsPrefix(s[1..], p - 1);
      assert RemoveComments(s) == [s[0]] + RemoveComments(s[1..]);
    }
  }

  /** A comment runs from its `;` to the first newline after it; the comment
      goes and the newline stays, and the rest of the text is treated the
      same way. */
  lemma RemoveCommentsLine(a: string, c: string, b: string)
    requires ';' !in a && '\n' !in c
    ensures RemoveComments(a + [';'] + c + ['\n'] + b) == a + ['\n'] + RemoveComments(b)
  {
    var t := [';'] + c + ['\n'] + b;
    var rb := RemoveComments(b);
    assert RemoveComments(t) == ['\n'] + rb by {
      CommentAtStart(c, b);
    }
    assert RemoveComments(a + t) == a + RemoveComments(t) by {
      RemoveCommentsKeeps(a, t);
    }
    assert a + [';'] + c + ['\n'] + b == a + t;
    assert a + (['\n'] + rb) == a + ['\n'] + rb;
  }

  /** Text without a `;` in front of the rest is kept, and the rest is
      scanned on its own. */
  lemma {:induction false} RemoveCommentsKeeps(x: string, u: string)
    requires ';' !in x
    ensures RemoveComments(x + u) == x + RemoveComments(u)
    decreases |x|
  {
    if |x| > 0 {
      assert x + u == [x[0]] + (x[1..] + u);
      assert x[0] in x;
      RemoveCommentsKeeps(x[1..], u);
      RemoveCommentsCons(x[0], x[1..] + u);
      assert x == [x[0]] + x[1..];
    } else {
      assert x + u == u;
    }
  }

  /** A character other than `;` is kept and the scan goes on after it. */
  lemma RemoveCommentsCons(x: char, t: string)
    requires x != ';'
    ensures RemoveComments([x] + t) == [x] + RemoveComments(t)
  {
    assert ([x] + t)[1..] == t;
  }

  /** The text starts with a comment. */
  lemma CommentAtStart(c: string, b: string)
    requires '\n' !in c
    ensures RemoveComments([';'] + c + ['\n'] + b) == ['\n'] + RemoveComments(b)
  {
    var s := [';'] + c + ['\n'] + b;
    assert s[|c| + 1] == '\n';
    assert forall k :: 0 <= k < |c| + 1 ==> s[k] !in "\n" by {
      forall k | 0 <= k < |c| + 1 ensures s[k] !in "\n" {
        if k > 0 { assert s[k] == c[k - 1]; }
      }
    }
    FindCharsAt(s, 0, "\n", |c| + 1);
    assert s[|c| + 2..] == b;
  }

  /** `find_chars` stops at the first character in `chars`. */
  lemma {:induction false} FindCharsAt(s: string, start: nat, chars: seq<char>, k: nat)
    requires start <= k < |s| && s[k] in chars
    requires forall j :: start <= j < k ==> s[j] !in chars
    ensures FindChars(s, start, chars) == k
    decreases k - start
  {
    if start < k {
      FindCharsAt(s, start + 1, chars, k);
    }
  }
}

=== FILE: split_proofs.dfy ===
/** Where `split_exps` (diylisp/parser.py) cuts a program text: expression
    texts written one after another with single spaces between them are
    split back into exactly those texts. */
module SplitProofs {
  import opened Types
  import opened Host
  import opened Scanner
  import opened Parser
  import opened ReaderProofs

  /** Pieces joined with single spaces between them. */
  function Spaced(ps: seq<string>): string
    decreases |ps|
  {
    if |ps| == 0 then []
    else if |ps| == 1 then ps[0]
    else ps[0] + " " + Spaced(ps[1..])
  }

  /** An expression's text neither starts nor ends with whitespace. */
  lemma {:induction false} PieceEnds(e: string)
    requires Piece(e)
    ensures e[0] !in PyWhitespace && e[|e| - 1] !in PyWhitespace
    decreases |e|
  {
    if e[0] == '\'' {
      PieceEnds(e[1..]);
      assert e[|e| - 1] == e[1..][|e[1..]| - 1];
    } else if e[0] != '(' {
      assert e[0] in e && e[|e| - 1] in e;
    }
  }

  /** Joined pieces neither start nor end with whitespace. */
  lemma {:induction false} SpacedEnds(ps: seq<string>)
    requires |ps| > 0 && AllPieces(ps)
    ensures |Spaced(ps)| > 0
    ensures Spaced(ps)[0] !in PyWhitespace && Spaced(ps)[|Spaced(ps)| - 1] !in PyWhitespace
    decreases |ps|
  {
    PieceEnds(ps[0]);
    if |ps| > 1 {
      var rest := Spaced(ps[1..]);
      SpacedEnds(ps[1..]);
      assert Spaced(ps) == ps[0] + (" " + rest);
    }
  }

  /** `str.strip()` of a space before text that has no whitespace at its
      ends is that text. */
  lemma StripSpaceCons(x: string)
    requires |x| > 0 && x[0] !in PyWhitespace && x[|x| - 1] !in PyWhitespace
    ensures Strip(" " + x) == x
  {
    assert (" " + x)[1..] == x;
    assert StripLeft(" " + x) == StripLeft(x);
  }

  /** What may follow an expression's text when it is cut off: nothing, or
      a space and then text that does not end with whitespace. */
  predicate Follows(t: string) {
    t == [] || (|t| > 1 && t[0] == ' ' && t[|t| - 1] !in PyWhitespace)
  }

  /** `first_expression` on stripped text that starts with an expression's
      text cuts exactly that text off. */
  lemma {:induction false} FirstOfPiece(e: string, t: string)
    requires Piece(e) && Follows(t)
    ensures FirstOfStripped(e + t) == Success((e, t))
    decreases |e|
  {
    var s := e + t;
    assert s[0] == e[0];
    if e[0] == '\'' {
      FirstOfPiece(e[1..], t);
      QuoteCut(e, t);
    } else if e[0] == '(' {
      ListCut(e, t);
    } else {
      AtomCut(e, t);
    }
  }

  /** A quotation is cut where the quoted expression's text ends. */
  lemma QuoteCut(e: string, t: string)
    requires |e| > 1 && e[0] == '\'' && Piece(e[1..]) && Follows(t)
    requires FirstOfStripped(e[1..] + t) == Success((e[1..], t))
    ensures FirstOfStripped(e + t) == Success((e, t))
  {
    var e' := e[1..];
    var s := e + t;
    TailOfJoin(e, t);
    PieceFollowedEnds(e', t);
    FirstOfStrippedAlready(e' + t);
    QuoteStep(s, e', t);
    assert [s[0]] + e' == e;
  }

  /** Dropping the first character of joined text with a nonempty head. */
  lemma TailOfJoin(e: string, t: string)
    requires |e| > 0
    ensures (e + t)[0] == e[0] && (e + t)[1..] == e[1..] + t
  {
  }

  /** An expression's text and what may follow it neither start nor end
      with whitespace. */
  lemma PieceFollowedEnds(e: string, t: string)
    requires Piece(e) && Follows(t)
    ensures |e + t| > 0 && (e + t)[0] !in PyWhitespace && (e + t)[|e + t| - 1] !in PyWhitespace
  {
    PieceEnds(e);
    assert (e + t)[0] == e[0];
    assert (e + t)[|e + t| - 1] == if t == [] then e[|e| - 1] else t[|t| - 1];
  }

  /** A quote mark followed by text whose first cut is `(e, t)`. */
  lemma QuoteStep(s: string, e: string, t: string)
    requires |s| > 0 && s[0] == '\'' && FirstExpression(s[1..]) == Success((e, t))
    ensures FirstOfStripped(s) == Success(([s[0]] + e, t))
  {
  }

  /** A parenthesised expression's text is cut at its own last character. */
  lemma ListCut(e: string, t: string)
    requires Piece(e) && e[0] == '('
    ensures SplitList(e + t) == Success((e, t))
  {
    var s := e + t;
    assert s[..|e|] == e;
    var r := SplitList(s);
    assert r.Success?;
    FirstBalanceUnique(r.value.0, r.value.1, e, t);
  }

  /** Two prefixes of one text whose parentheses first balance at their
      last character are the same prefix. */
  lemma FirstBalanceUnique(a: string, x: string, b: string, y: string)
    requires a + x == b + y && |a| > 0 && |b| > 0
    requires Balance(a) == 0 && forall k :: 0 < k < |a| ==> Balance(a[..k]) > 0
    requires Balance(b) == 0 && forall k :: 0 < k < |b| ==> Balance(b[..k]) > 0
    ensures a == b && x == y
  {
    FirstBalanceNotBefore(a, x, b, y);
    FirstBalanceNotBefore(b, y, a, x);
    assert a == (a + x)[..|a|] && b == (b + y)[..|b|];
    assert x == (a + x)[|a|..] && y == (b + y)[|b|..];
  }

  /** No prefix of a text balances before the text's first balance point. */
  lemma FirstBalanceNotBefore(a: string, x: string, b: string, y: string)
    requires a + x == b + y && |a| > 0 && Balance(a) == 0
    requires forall k :: 0 < k < |b| ==> Balance(b[..k]) > 0
    ensures |b| <= |a|
  {
    if |a| < |b| {
      BalancedPrefix(a, x, b, y);
    }
  }

  /** A balanced text is also a balanced prefix of any longer prefix of
      the same text. */
  lemma BalancedPrefix(a: string, x: string, b: string, y: string)
    requires a + x == b + y && |a| < |b| && Balance(a) == 0
    ensures Balance(b[..|a|]) == 0
  {
    assert b[..|a|] == (b + y)[..|a|] == a;
  }

  /** An atom followed by nothing or a space is cut where it ends. */
  lemma AtomCut(e: string, t: string)
    requires Piece(e) && e[0] != '\'' && e[0] != '(' && Follows(t)
    ensures SplitAtom(e + t) == Success((e, t))
  {
    var s := e + t;
    assert e[0] in e && s[0] == e[0];
    var r := SplitAtom(s);
    assert r.Success?;
    assert t == [] || t[0] in AtomStops;
    StopFreeUnique(r.value.0, r.value.1, e, t);
  }

  /** Two stop-free prefixes of one text, each followed by nothing or a
      stop, are the same prefix. */
  lemma StopFreeUnique(a: string, x: string, b: string, y: string)
    requires a + x == b + y
    requires (forall c :: c in a ==> c !in AtomStops) && (x == [] || x[0] in AtomStops)
    requires (forall c :: c in b ==> c !in AtomStops) && (y == [] || y[0] in AtomStops)
    ensures a == b && x == y
  {
    StopFreeNotLonger(a, x, b, y);
    StopFreeNotLonger(b, y, a, x);
    assert a == (a + x)[..|a|] && b == (b + y)[..|b|];
    assert x == (a + x)[|a|..] && y == (b + y)[|b|..];
  }

  /** A stop-free prefix reaches no further than the first stop. */
  lemma StopFreeNotLonger(a: string, x: string, b: string, y: string)
    requires a + x == b + y && (x == [] || x[0] in AtomStops)
    requires forall c :: c in b ==> c !in AtomStops
    ensures |b| <= |a|
  {
    if |a| < |b| {
      StopFreeBeyond(a, x, b, y);
    }
  }

  /** Text running past a shorter prefix inside a stop-free prefix goes on
      with a character that is not a stop. */
  lemma StopFreeBeyond(a: string, x: string, b: string, y: string)
    requires a + x == b + y && |a| < |b|
    requires forall c :: c in b ==> c !in AtomStops
    ensures x != [] && x[0] !in AtomStops
  {
    assert b[|a|] in b && (b + y)[|a|] == b[|a|] && (a + x)[|a|] == x[0];
  }

  /** The loop of `split_exps` on joined pieces gives back the pieces. */
  lemma {:induction false} SplitRestSpaced(ps: seq<string>)
    requires |ps| > 0 && AllPieces(ps)
    ensures SplitRest(Spaced(ps)) == Success(ps)
    decreases |ps|
  {
    HeadTail(ps);
    if |ps| == 1 {
      SplitRestOne(ps[0], [], ps[1..]);
    } else {
      SpacedEnds(ps[1..]);
      SplitRestSpaced(ps[1..]);
      SplitRestCons(ps[0], Spaced(ps[1..]), ps[1..]);
    }
  }

  /** A nonempty list of pieces is its head before its tail. */
  lemma HeadTail(ps: seq<string>)
    requires |ps| > 0 && AllPieces(ps)
    ensures [ps[0]] + ps[1..] == ps && Piece(ps[0]) && AllPieces(ps[1..])
    ensures |ps| > 1 ==> Spaced(ps) == ps[0] + " " + Spaced(ps[1..])
    ensures |ps| == 1 ==> Spaced(ps) == ps[0] && ps[1..] == []
  {
  }

  /** One expression's text is cut into just itself. */
  lemma SplitRestOne(e: string, t: string, m: seq<string>)
    requires Piece(e) && t == [] && m == []
    ensures SplitRest(e) == Success([e] + m)
  {
    FirstOfPieceAlone(e);
    SplitRestLast(e, e, t, m);
  }

  lemma FirstOfPieceAlone(e: string)
    requires Piece(e)
    ensures FirstExpression(e) == Success((e, []))
  {
    PieceEnds(e);
    FirstOfStrippedAlready(e);
    assert e + [] == e;
    FirstOfPiece(e, []);
  }

  /** The last turn of the loop of `split_exps`. */
  lemma SplitRestLast(x: string, e: string, t: string, m: seq<string>)
    requires |x| > 0 && t == [] && m == [] && FirstExpression(x) == Success((e, t))
    ensures SplitRest(x) == Success([e] + m)
  {
    SplitRestNothing(t);
    SplitRestStep(x, e, t, m);
  }

  /** Nothing is cut into no pieces. */
  lemma SplitRestNothing(t: string)
    requires t == []
    ensures SplitRest(t) == Success([])
  {
  }

  /** An expression's text, a space and more text: the first piece is the
      expression and the rest are cut from the more text. */
  lemma SplitRestCons(e: string, j: string, more: seq<string>)
    requires Piece(e) && |j| > 0 && j[0] !in PyWhitespace && j[|j| - 1] !in PyWhitespace
    requires SplitRest(j) == Success(more)
    ensures SplitRest(e + " " + j) == Success([e] + more)
  {
    FirstOfPieceSpaced(e, j);
    SplitRestSpace(j);
    SplitRestStep(e + " " + j, e, " " + j, more);
  }

  lemma FirstOfPieceSpaced(e: string, j: string)
    requires Piece(e) && |j| > 0 && j[0] !in PyWhitespace && j[|j| - 1] !in PyWhitespace
    ensures FirstExpression(e + " " + j) == Success((e, " " + j))
  {
    var t := " " + j;
    var s := e + t;
    assert e + " " + j == s;
    PieceEnds(e);
    assert s[0] == e[0] && s[|s| - 1] == j[|j| - 1];
    FirstOfStrippedAlready(s);
    FirstOfPiece(e, t);
  }

  /** A leading space changes nothing for the loop of `split_exps`. */
  lemma SplitRestSpace(j: string)
    requires |j| > 0 && j[0] !in PyWhitespace && j[|j| - 1] !in PyWhitespace
    ensures SplitRest(" " + j) == SplitRest(j)
  {
    assert FirstExpression(" " + j) == FirstExpression(j) by {
      StripSpaceCons(j);
      FirstOfStrippedAlready(j);
    }
    SplitRestSameFirst(" " + j, j);
  }

  /** Text without whitespace at its ends is split as it stands. */
  lemma FirstOfStrippedAlready(s: string)
    requires |s| > 0 && s[0] !in PyWhitespace && s[|s| - 1] !in PyWhitespace
    ensures FirstExpression(s) == FirstOfStripped(s)
  {
    assert Strip(s) == s;
  }

  /** One turn of the loop of `split_exps`. */
  lemma SplitRestStep(rest: string, e: string, after: string, more: seq<string>)
    requires |rest| > 0 && FirstExpression(rest) == Success((e, after))
    requires SplitRest(after) == Success(more)
    ensures SplitRest(rest) == Success([e] + more)
  {
  }

  /** The loop of `split_exps` depends only on the first cut. */
  lemma SplitRestSameFirst(a: string, b: string)
    requires |a| > 0 && |b| > 0 && FirstExpression(a) == FirstExpression(b)
    ensures SplitRest(a) == SplitRest(b)
  {
  }

  /** `split_exps` cuts text made of expression texts with single spaces
      between them back into exactly those texts. */
  lemma {:induction false} SplitExpsSpaced(ps: seq<string>)
    requires AllPieces(ps)
    ensures SplitExps(Spaced(ps)) == Success(ps)
  {
    if |ps| == 0 {
      assert Strip([]) == [];
    } else {
      SpacedEnds(ps);
      assert Strip(Spaced(ps)) == Spaced(ps);
      SplitRestSpaced(ps);
    }
  }

  /** The example of `split_exps`'s documentation. */
  lemma {:induction false} SplitExpsExample()
    ensures SplitExps("foo bar (baz 123)") == Success(["foo", "bar", "(baz 123)"])
  {
    var ps := ["foo", "bar", "(baz 123)"];
    ExamplePieces(ps);
    assert Spaced(ps) == "foo bar (baz 123)" by {
      assert ps[1..][1..] == ["(baz 123)"];
    }
    SplitExpsSpaced(ps);
  }

  /** Each text of the documentation's example is one expression's text. */
  lemma ExamplePieces(ps: seq<string>)
    requires ps == ["foo", "bar", "(baz 123)"]
    ensures AllPieces(ps)
  {
    var l := "(" + "baz 123" + ")";
    assert Piece(l) by {
      NoParensBalanced("baz 123");
      Wrapped("baz 123");
      assert l[0] == '(' && l[|l| - 1] == ')';
    }
    assert l == "(baz 123)";
    assert Piece("foo") && Piece("bar");
    assert ps[1..][1..] == [l];
    assert AllPieces(ps[1..][1..]);
  }
}

=== FILE: types.dfy ===
/** The error kind and the environment (diylisp/types.py). */
module Types {
  import opened Ast

  /** Every failure stops the current `parse` or `evaluate` call.
      `LispError` is the source's own exception; `HostError` names a Python
      exception the source raises by accident (an index past the end of a
      string, an unbound local, a zero divisor, ...). */
  datatype Error =
    | LispError(message: string)
    | HostError(name: string)

  datatype Result<+T> = Success(value: T) | Failure(error: Error) {
    predicate IsFailure() {
      Failure?
    }

    function PropagateFailure<U>(): Result<U>
      requires Failure?
    {
      Failure(error)
    }

    function Extract(): T
      requires Success?
    {
      value
    }
  }

  datatype Option<+T> = None | Some(value: T)

  /** A flat table from symbol names to values. */
  datatype Env = Env(vars: map<string, Ast>)

  /** `Environment.lookup`: the bound value, or an error for an unbound name. */
  function Lookup(env: Env, name: string): (r: Result<Ast>)
    ensures r.Success? <==> name in env.vars
    ensures r.Success? ==> r.value == env.vars[name]
    ensures r.Failure? ==> r.error == LispError("symbol not defined: " + name)
  {
    if name in env.vars then Success(env.vars[name])
    else Failure(LispError("symbol not defined: " + name))
  }

  /** `Environment.extend`: a fresh table holding the parent's bindings with
      `bindings` written over them. */
  function Extend(env: Env, bindings: map<string, Ast>): (child: Env)
    ensures child.vars.Keys == env.vars.Keys + bindings.Keys
    ensures forall k :: k in bindings ==> child.vars[k] == bindings[k]
    ensures forall k :: k in env.vars && k !in bindings ==> child.vars[k] == env.vars[k]
  {
    Env(env.vars + bindings)
  }

  /** `Environment.set`: binds a name once; a second binding of the same name
      is refused. */
  function Set(env: Env, name: string, value: Ast): (r: Result<Env>)
    ensures r.Failure? <==> name in env.vars
    ensures r.Failure? ==> r.error == LispError("already defined: " + name)
    ensures r.Success? ==> r.value.vars.Keys == env.vars.Keys + {name}
    ensures r.Success? ==> r.value.vars[name] == value
    ensures r.Success? ==> forall k :: k in env.vars ==> r.value.vars[k] == env.vars[k]
  {
    if name in env.vars then Failure(LispError("already defined: " + name))
    else Success(Env(env.vars[name := value]))
  }

  /** `child` keeps every binding of `parent` with the same value. */
  predicate Grows(parent: Env, child: Env) {
    forall k :: k in parent.vars ==> k in child.vars && child.vars[k] == parent.vars[k]
  }

  /** After a successful `set`, looking up the name gives the new value and
      every other lookup is what it was. */
  lemma {:induction false} LookupAfterSet(env: Env, name: string, value: Ast, other: string)
    requires Set(env, name, value).Success?
    ensures Lookup(Set(env, name, value).value, name) == Success(value)
    ensures other != name ==> Lookup(Set(env, name, value).value, other) == Lookup(env, other)
  {
  }

  /** A second `set` of a name, in the environment the first `set` made, is
      refused with "already defined". */
  lemma {:induction false} SetTwiceRefused(env: Env, name: string, v1: Ast, v2: Ast)
    requires Set(env, name, v1).Success?
    ensures Set(Set(env, name, v1).value, name, v2) == Failure(LispError("already defined: " + name))
  {
  }

  /** Lookups in an extended environment: the new bindings win, the parent
      answers for every other name. */
  lemma {:induction false} LookupAfterExtend(env: Env, bindings: map<string, Ast>, name: string)
    ensures name in bindings ==> Lookup(Extend(env, bindings), name) == Success(bindings[name])
    ensures name !in bindings ==> Lookup(Extend(env, bindings), name) == Lookup(env, name)
  {
  }

  /** `extend` copies the table. When neither the parent nor the new bindings
      hold a name, binding it in the extended child succeeds and gives the new
      value, while the parent still lacks it; every other name not rebound
      looks up in the child as it does in the parent. */
  lemma {:induction false} SetInChildLeavesParent(env: Env, bindings: map<string, Ast>, name: string, value: Ast)
    requires name !in env.vars && name !in bindings
    ensures Set(Extend(env, bindings), name, value).Success?
    ensures Lookup(Set(Extend(env, bindings), name, value).value, name) == Success(value)
    ensures Lookup(env, name).Failure?
    ensures forall k :: k !in bindings && k != name ==>
              Lookup(Set(Extend(env, bindings), name, value).value, k) == Lookup(env, k)
  {
  }
}
